=== FILE: README.md ===
# warped2-models: epidemic wiring, location handler, person record and airport model in Dafny

This project models four pieces of the warped2 example models and proves properties about them.

- **The Watts–Strogatz contact-graph generator of the epidemic model** (`WattsStrogatzModel`).
  - `populateNodes` stores the node names and allocates an n-by-n all-false matrix.
  - `mapNodes` writes a ring lattice. Each node gets `k/2` counter-clockwise and `k - k/2` clockwise links, with every index computed in `unsigned int`. It then runs a rewiring pass that only ever writes `false`.
  - `fetchNodeLinks` turns the row of the first node with a given name back into names. An unknown name aborts the run.
- **The epidemic `Location` logical process.**
  - `initializeLP` schedules the location's two self-addressed triggers.
  - `receiveEvent` handles a disease-update trigger, a diffusion trigger (one resident leaves for another location) and a migration arrival.
  - The population is the `std::map` keyed by person id. It is modelled as its iteration sequence, strictly increasing in id.
- **The start-up wiring** (lines 248-267 of `epidemic.cpp`). The generator runs over the location names, and then every location receives the travel-time table of its graph neighbours.
- **The `Person` record** carried by migrations. This covers the six-state infection enum, the constructor, and the order in which the fields are written and read back by `load_and_construct`.
- **Fujimoto's airport model.** `createInitialEvents`, `object_name`, and `receiveEvent` for departures and arrivals.

Files and modules:

| file | module | contents |
|---|---|---|
| `wrappers.dfy` | `Wrappers` | `Option` and `Result` |
| `unsigned.dfy` | `Unsigned` | `unsigned int` arithmetic (`Wrap32`, `Add32`, `Sub32`) |
| `person.dfy` | `PersonRecord` | the enum, `Person` and its archive format |
| `population.dfy` | `Population` | the id-keyed population |
| `epidemic_location.dfy` | `EpidemicLocation` | the location handler |
| `ring_lattice.dfy` | `RingLattice` | lattice index arithmetic and the ring facts |
| `watts_strogatz.dfy` | `WattsStrogatz` | the generator |
| `travel_map.dfy` | `TravelMap` | the start-up wiring |
| `airport.dfy` | `Airport` | the airport model |

Modelling choices:

- **Randomness.** Every random draw and every call into code whose source is not modelled is an explicit input:
  - the values the rewiring pass's two distributions return, in call order;
  - the exponential delays and the destination index of the airport;
  - the disease reaction, the random factor, and the diffusion network's destination, travel time and picked index.
- **Integer widths.** `unsigned int` timestamps and sums wrap modulo 2^32 exactly as the source computes them. Person ids are `unsigned long`.
- **Behaviour reproduced as the code has it:**
  - `populateNodes` accepts any node count; no `n >= k + 1` check is made.
  - For odd `k`, when the ring is longer than `2 (k - k/2)` nodes and no `unsigned int` index sum wraps, each lattice node has `k + 1` neighbours, not `k`. On shorter rings the two half-neighbourhoods overlap: with n = 3 and k = 3, node 0 has only the neighbours 1 and 2.
  - The rewiring pass clears the link to the replacement node instead of setting it, so rewiring only removes links.
  - A migration arriving with an id the location already holds is dropped, because the population uses `insert`.
- **The rewiring pass, twice.** `WattsStrogatz.RowFrom` and `WattsStrogatz.RewireFrom` state the pass as a recursive reference definition, cell by cell within a row and row by row. It consumes the draws exactly where the source calls its two distributions. The imperative `Rewire` is proved equal to it, and the threshold lemmas are stated against it.

## Model

| member | source | states |
|---|---|---|
| PersonRecord.Ordinal | models/epidemic/Person.hpp:7-16 | every infection state's enumerator value lies below `MAX_INFECTION_STATE_NUM`, the count sentinel; `FromOrdinal` and `OrdinalRoundTrip` pin each value |
| PersonRecord.FromOrdinal | models/epidemic/Person.hpp:7-16 | exactly the values 0 .. 5 (below `MAX_INFECTION_STATE_NUM` = 6) name a state, and the state named has that value as its enumerator |
| PersonRecord.OrdinalRoundTrip | models/epidemic/Person.hpp:7-16 | reading back a state's enumerator value gives that state |
| PersonRecord.OrdinalInjective | models/epidemic/Person.hpp:7-16 | distinct infection states have distinct enumerator values |
| PersonRecord.Save | models/epidemic/Person.hpp:35-37 | a person is written as six fields in the registered order pid, susceptibility, vaccination, infection state, arrival timestamp, previous state-change timestamp, each with its C++ type |
| PersonRecord.Load | models/epidemic/Person.hpp:39-50 | loading consumes exactly six fields and leaves the rest unread; an archive shorter than six fields fails |
| PersonRecord.LoadSave | models/epidemic/Person.hpp:35-50 | loading what was saved gives back a field-for-field equal person and leaves what follows unread |
| PersonRecord.SaveLoad | models/epidemic/Person.hpp:35-50 | any archive that loads as a person begins with exactly the fields saving that person writes |
| Population.RemoveAt | models/epidemic/epidemic.cpp:46-55 | erasing at the iterator advanced `p` places removes the p-th resident in id order: one fewer, everybody else in the same order, the multiset loses exactly that person, and id order is kept |
| Population.RemoveAtKeys | models/epidemic/epidemic.cpp:46-55 | erasing removes exactly the erased resident's id from the keys |
| Population.Insert | models/epidemic/epidemic.cpp:68-69 | inserting keeps the population ordered by id and makes the new id a key, adding no other key |
| Population.InsertPresent | models/epidemic/epidemic.cpp:68-69 | inserting an id that is already a key leaves the population unchanged, so the incoming person is dropped |
| Population.InsertAbsent | models/epidemic/epidemic.cpp:68-69 | inserting a new id adds exactly the incoming person |
| Population.InsertEffect | models/epidemic/epidemic.cpp:68-69 | `insert` in either case: a known id leaves the map as it was, a new id adds exactly the incoming person |
| Population.InsertAfterRemove | models/epidemic/epidemic.cpp:46-69 | erasing a resident and inserting the same person again restores the population exactly |
| EpidemicLocation.InitializeLP | models/epidemic/epidemic.cpp:9-19 | exactly two self-addressed events: a disease-update trigger at the refresh interval, then a diffusion trigger at the diffusion interval |
| EpidemicLocation.PersonCount | models/epidemic/epidemic.cpp:43 | the population size stored in `unsigned int`: never more than the size, and equal to it whenever the size is below 2^32 |
| EpidemicLocation.Board | models/epidemic/epidemic.cpp:52-54 | the migration event carries every field of the departing person except the arrival timestamp: landing it at the person's own arrival time gives back that person |
| EpidemicLocation.Land | models/epidemic/epidemic.cpp:64-67 | the person built on arrival copies pid, susceptibility, vaccination, infection state and previous state-change timestamp from the event and takes the event time as arrival timestamp |
| EpidemicLocation.UpdateDisease | models/epidemic/epidemic.cpp:30-37 | the population becomes the reaction's output for the event time and drawn factor, and exactly one event is sent: a self-addressed disease-update trigger at `timestamp + refresh_interval` in `unsigned int` |
| EpidemicLocation.Diffuse | models/epidemic/epidemic.cpp:39-61 | the reschedule at `timestamp + diffusion_interval` is always the last event. With no destination or a zero count, the population is unchanged and nothing else is sent. Otherwise the picked resident alone leaves (order and id uniqueness kept) and goes first to the destination at `timestamp + travel_time` |
| EpidemicLocation.Arrive | models/epidemic/epidemic.cpp:63-70 | nothing is sent; the id becomes a key and the map stays keyed by id; a new id adds exactly the person built from the event with the event time as arrival time; a known id leaves the population unchanged |
| EpidemicLocation.ReceiveEvent | models/epidemic/epidemic.cpp:22-75 | the dispatch on the three kinds never changes a location's name or intervals |
| EpidemicLocation.LandBoard | models/epidemic/epidemic.cpp:63-67 | the person rebuilt on arrival equals the one that left in every field except the arrival timestamp, which is the event time |
| EpidemicLocation.ReceiveKeepsWellFormed | models/epidemic/epidemic.cpp:28-73 | no event kind makes a location hold two persons with one id, provided the disease reaction keeps the map keyed by id |
| EpidemicLocation.Departs | models/epidemic/epidemic.cpp:43-55 | a migrating diffusion trigger sends the picked resident and removes it and only its id from the population |
| EpidemicLocation.Arrives | models/epidemic/epidemic.cpp:63-70 | the migration event received by a location without that id adds the departed person, restamped with the event time |
| EpidemicLocation.MigrationConserves | models/epidemic/epidemic.cpp:39-70 | a migration between two locations with disjoint ids loses and duplicates nobody: the same person (restamped) moves, and the id sets stay disjoint with the same union |
| EpidemicLocation.DiseaseTriggerPeriod | models/epidemic/epidemic.cpp:14-37 | after `initializeLP` and `j` handled disease-update triggers the pending one is self-addressed at `(j + 1) * refresh_interval` modulo 2^32 |
| EpidemicLocation.SingleResidentMigrates | models/epidemic/epidemic.cpp:39-61 | a one-resident location whose trigger at 100 picks that resident to a neighbour 15 away empties and sends it for 115, rescheduling at 120 |
| EpidemicLocation.IsolatedLocationKeepsResidents | models/epidemic/epidemic.cpp:39-61 | with no destination a three-resident location keeps exactly the same three residents, in the same order, and only reschedules |
| WattsStrogatz.NewModel | models/epidemic/WattsStrogatzModel.hpp:12-13 | the constructor records the degree and threshold and has no nodes |
| WattsStrogatz.PopulateNodes | models/epidemic/WattsStrogatzModel.hpp:15-26 | the node list is the input in the same order and the matrix is n-by-n with every entry false |
| WattsStrogatz.AddLeftLinks | models/epidemic/WattsStrogatzModel.hpp:37-41 | the first inner loop adds, in both directions, exactly the links from row `index` to its counter-clockwise targets at offsets 1 .. k/2, and keeps a symmetric matrix symmetric |
| WattsStrogatz.AddRightLinks | models/epidemic/WattsStrogatzModel.hpp:42-46 | the second inner loop adds, in both directions, exactly the links from row `index` to its clockwise targets at offsets 1 .. k - k/2, and keeps a symmetric matrix symmetric |
| WattsStrogatz.AddRow | models/epidemic/WattsStrogatzModel.hpp:36-47 | one outer iteration extends the links of the rows before it by exactly row `index`'s lattice links |
| WattsStrogatz.AddLattice | models/epidemic/WattsStrogatzModel.hpp:35-47 | after the lattice loop an entry is set exactly when it was set before or is a lattice link (either end wrote it), and symmetry is kept |
| WattsStrogatz.DrawReplacement | models/epidemic/WattsStrogatzModel.hpp:60-64 | the retry loop returns the first node draw that differs from both ends of the link, every draw skipped equals one of them; it can only succeed when n >= 3, or n >= 2 when the two ends coincide |
| WattsStrogatz.Rewired | models/epidemic/WattsStrogatzModel.hpp:65-68 | the four writes clear exactly the old link and the link to the replacement, both directions; every other entry is unchanged |
| WattsStrogatz.ApplyRewiring | models/epidemic/WattsStrogatzModel.hpp:65-68 | the four writes clear the old link and the link to the replacement, both directions, and nothing else |
| WattsStrogatz.ClearedBySymmetric | models/epidemic/WattsStrogatzModel.hpp:65-68 | every entry cleared by the rewirings has its mirror cleared too |
| WattsStrogatz.RowFrom | models/epidemic/WattsStrogatzModel.hpp:55-68 | the reference for one row: an unset entry is skipped; a set one takes one precision draw and a draw at or above the threshold skips it; otherwise `DrawReplacement` gives the replacement and the four entries are cleared; running out of draws is a `DrawsExhausted` failure. The row uses at most one precision draw per column and consumes draws only forward |
| WattsStrogatz.RewireFrom | models/epidemic/WattsStrogatzModel.hpp:54-70 | the reference for the whole pass: the rows in order, each `RowFrom` starting with the matrix and draw positions the previous row ended with; a failing row fails the pass with `DrawsExhausted` |
| WattsStrogatz.RewireRow | models/epidemic/WattsStrogatzModel.hpp:55-69 | one row of the pass ends in exactly the state `RowFrom` gives: the same matrix and the same precision and node draw positions, and it fails exactly when `RowFrom` fails; it uses at most one precision draw per column, only clears entries through valid rewirings, and with a zero threshold changes nothing |
| WattsStrogatz.Rewire | models/epidemic/WattsStrogatzModel.hpp:54-70 | the pass equals the reference pass `RewireFrom` from the first cell: row-major order, one precision draw per link still set when it is visited, and below the threshold the first node draw distinct from both ends as replacement. It only removes links (exactly the input minus the entries its rewirings cleared), keeps symmetry; with no draw below the threshold and n*n draws it returns the input unchanged, and with every draw below the threshold a completed pass leaves no link |
| WattsStrogatz.RowFromIdle | models/epidemic/WattsStrogatzModel.hpp:55-58 | with no precision draw below the threshold and one for every cell left in the row, the rest of the row changes nothing and uses no node draw |
| WattsStrogatz.RewireFromIdle | models/epidemic/WattsStrogatzModel.hpp:54-58 | with no precision draw below the threshold and one for every cell still to visit, the rest of the pass changes nothing |
| WattsStrogatz.RowFromClears | models/epidemic/WattsStrogatzModel.hpp:55-68 | with every precision draw below the threshold, a row that completes leaves every cell up to its end cleared |
| WattsStrogatz.RewireFromClears | models/epidemic/WattsStrogatzModel.hpp:54-68 | with every precision draw below the threshold, each link visited while set is cleared, so a pass that completes leaves no link |
| WattsStrogatz.MapNodes | models/epidemic/WattsStrogatzModel.hpp:28-71 | for every threshold the result is the reference pass over the old links plus the lattice: a link remains exactly when it was there before or is a lattice link and no rewiring cleared it, each rewiring dropped a link of that lattice; symmetry is kept, and with threshold 0 the result is exactly the previous links plus the lattice |
| WattsStrogatz.MapNodesNoSelfLoops | models/epidemic/WattsStrogatzModel.hpp:15-71 | on a fresh model, once no lattice offset wraps back to its start, the generated graph has no self-loops |
| WattsStrogatz.FirstIndex | models/epidemic/WattsStrogatzModel.hpp:76-83 | the count loop stops at the first node with the name, or at the node count when there is none |
| WattsStrogatz.LinkIndices | models/epidemic/WattsStrogatzModel.hpp:89-94 | the positions whose entry is set, in increasing order, each one exactly once |
| WattsStrogatz.LinkIndicesCount | models/epidemic/WattsStrogatzModel.hpp:89-94 | there are as many links listed as set entries in the row |
| WattsStrogatz.FetchNodeLinks | models/epidemic/WattsStrogatzModel.hpp:74-96 | an unknown name is the fatal invalid-fetch error; otherwise the result is, in node order, exactly the names whose entry is set in the row of the first node with that name |
| WattsStrogatz.FetchedLatticeDegree | models/epidemic/WattsStrogatzModel.hpp:74-96 | on a lattice row with n > 2 (k - k/2), `fetchNodeLinks` returns 2 (k - k/2) names and never the node itself |
| RingLattice.LeftIndex | models/epidemic/WattsStrogatzModel.hpp:38 | the counter-clockwise index, computed with the `unsigned int` wrap of `index + num_nodes - node_index`, is always a node below `num_nodes` |
| RingLattice.RightIndex | models/epidemic/WattsStrogatzModel.hpp:43 | the clockwise index, computed with the `unsigned int` wrap of `index + node_index`, is always a node below `num_nodes` |
| RingLattice.LeftIndexOnRing | models/epidemic/WattsStrogatzModel.hpp:38 | when nothing wraps in `unsigned int`, the counter-clockwise index is `index - d` around the ring |
| RingLattice.RightIndexOnRing | models/epidemic/WattsStrogatzModel.hpp:43 | when nothing wraps in `unsigned int`, the clockwise index is `index + d` around the ring |
| RingLattice.LatticeNeighbours | models/epidemic/WattsStrogatzModel.hpp:36-47 | when n > 2 (k - k/2), a lattice link joins two nodes exactly when their ring distance is between 1 and k - k/2 |
| RingLattice.EdgeWithinDistance | models/epidemic/WattsStrogatzModel.hpp:36-47 | when n > 2 (k - k/2), whichever end wrote a lattice link, its two nodes are between 1 and k - k/2 steps apart on the ring |
| RingLattice.DistanceGivesEdge | models/epidemic/WattsStrogatzModel.hpp:36-47 | when n > 2 (k - k/2), every pair of nodes between 1 and k - k/2 steps apart is linked by one of its ends' writes |
| RingLattice.LatticeNoSelfLoop | models/epidemic/WattsStrogatzModel.hpp:36-47 | no node is its own lattice neighbour once the ring is longer than k - k/2 |
| RingLattice.LatticeDegree | models/epidemic/WattsStrogatzModel.hpp:36-47 | each node has exactly 2 (k - k/2) lattice neighbours, which is k when k is even |
| RingLattice.SixNodesDegreeFour | models/epidemic/WattsStrogatzModel.hpp:36-47 | with six nodes and k = 4, node 0's neighbours are exactly 1, 2, 4 and 5 |
| TravelMap.Names | models/epidemic/epidemic.cpp:250-253 | the generator's node list is the location names in configuration order |
| TravelMap.HubTimes | models/epidemic/epidemic.cpp:195 | the hub-time map has a key for every location name and holds the travel time of the first location with that name |
| TravelMap.NeighbourTravelTimes | models/epidemic/epidemic.cpp:260-265 | the per-location table has exactly the links as keys, each with its hub time |
| TravelMap.TravelTableOf | models/epidemic/epidemic.cpp:258-266 | a location's table has one entry per graph neighbour, holding that neighbour's own travel time to the hub |
| TravelMap.BuildTravelTables | models/epidemic/epidemic.cpp:258-267 | every location gets its travel table and no fetch aborts |
| TravelMap.WireLocations | models/epidemic/epidemic.cpp:248-267 | the graph is the reference pass over the bare ring lattice of the location names: a link exists exactly when it is a lattice link no rewiring cleared; it is symmetric, has no self-loops when the ring is wide enough, and every location gets its table; with threshold 0 each table's keys are exactly the location's lattice neighbours |
| Airport.CreateInitialEvents | models/airport/airport.cpp:20-28 | exactly `num_planes` departures, all to this airport, the i-th at the i-th drawn delay |
| Airport.Decimal | models/airport/airport.cpp:30-33 | `std::to_string` of an unsigned value is a non-empty digit string with no leading zero |
| Airport.ParseDecimalOfDecimal | models/airport/airport.cpp:30-33 | the decimal rendering reads back as the number rendered |
| Airport.DecimalInjective | models/airport/airport.cpp:30-33 | distinct numbers have distinct decimal renderings |
| Airport.ObjectName | models/airport/airport.cpp:30-33 | the name is `"Object "` followed by decimal digits that read back as the airport index |
| Airport.ObjectNameInjective | models/airport/airport.cpp:30-33 | distinct airport indices give distinct object names |
| Airport.ReceiveEvent | models/airport/airport.cpp:35-69 | a departure takes one plane off the ground and counts a departure, sending one arrival at `ts + flight delay` to the object name of the drawn destination index, which lies in `0 .. num_airports - 1` computed in `unsigned int`; an arrival counts an arrival and grounds a plane, sending one departure to itself at `ts + ground delay` |
| Airport.DestinationExists | models/airport/airport.cpp:43-54 | with at least one airport the arrival is addressed to an airport that exists |
| Airport.RunConservesBalance | models/airport/airport.cpp:45-67 | after any sequence of events, grounded planes plus departures minus arrivals is unchanged, and the two counters grow by exactly the number of events of their kind |

## Left out

- Configuration-file and command-line parsing, printing of results, and the exit-status file are I/O and are not modelled.
- The random engine, the uniform and exponential distributions, `MLCG` and `NegativeExpntl` are not modelled. Their outputs are inputs to the model.
- The rewiring threshold is the natural number `(unsigned int)(beta * BETA_PRECISION)`. It is not computed from the floating-point `beta`.
- `WattsStrogatz.Rewire`: the draws are finite input sequences, so running out of them gives a `DrawsExhausted` failure that the source cannot produce. With an infinite stream the source's retry loop would instead spin forever when no node other than the link's ends exists: n < 3 for distinct ends, n < 2 for a self-loop. The precision draws are any natural numbers; the source's distribution keeps them below `BETA_PRECISION`, so a threshold of `BETA_PRECISION` or more puts every draw below it.
- The simulation kernel is left out: RNG registration for rollback, `simulate`, and the serialisation macros beyond the field order they fix.
- The disease model's `reaction` and the diffusion network's `pickLocation`, `travelTimeToLocation` and `pickPerson` are inputs, because their code is not part of this model. `EpidemicLocation.ReceiveKeepsWellFormed` assumes the reaction keeps the population keyed by id.
- `epidemic.hpp` and `airport.hpp` are not part of this model. Their declared types are inferred from how the code uses them:
  - the population is a `std::map` keyed by `unsigned long` id;
  - timestamps and intervals are `unsigned int`;
  - the type of the airport counters is not visible. The model uses unbounded integers, so a wrap-around is not modelled. If the counters are fixed-width, the balance `Airport.RunConservesBalance` states holds in the source only modulo the counter width.
- `PersonRecord.Load`: when an archive holds an infection-state value outside 0 .. 5, the model rejects it. The source would cast such a value into the enum unchecked.
- Floating-point values (the susceptibility and the random factor) are carried as 64-bit patterns and never computed with.
- WattsStrogatz.PopulateNodes: requires fewer than 2^32 nodes. The source stores `nodes.size()` into an `unsigned int` count, so with 2^32 or more names it would allocate a matrix of the truncated size while keeping every name; the model does not follow that case.
- `models/pcs/pcs_sim.hpp` holds only declarations and constants, with no event logic.
- Memory management is not modelled: the matrix that is never freed and the `shared_ptr` ownership.

=== FILE: airport.dfy ===
/**
 * Fujimoto's airport model: each airport logical process counts arrivals,
 * departures and grounded planes, and answers every departure with an
 * arrival somewhere and every arrival with a later departure from itself.
 * The exponential delays and the uniform destination draw arrive as inputs.
 */
module Airport {
  import opened Unsigned

  datatype EventKind = Arrival | Departure

  /** `AirportEvent`: receiver name, kind and receive timestamp. */
  datatype Event = Event(receiver: string, kind: EventKind, timestamp: u32)

  datatype Counters = Counters(arrivals: int, departures: int, planesGrounded: int)

  datatype Airport = Airport(name: string, numAirports: u32, numPlanes: u32, state: Counters)

  /** A handler's outcome: the airport afterwards and the events it sends. */
  datatype Step = Step(airport: Airport, events: seq<Event>)

  /**
   * `createInitialEvents`: one departure from this airport per plane, the
   * i-th at the i-th departure delay drawn (already truncated to `unsigned int`).
   */
  method CreateInitialEvents(a: Airport, departDelays: seq<u32>) returns (events: seq<Event>)
    requires |departDelays| == a.numPlanes
    ensures |events| == a.numPlanes
    ensures forall i :: 0 <= i < |events| ==>
      events[i].receiver == a.name && events[i].kind == Departure && events[i].timestamp == departDelays[i]
  {
    events := [];
    var i: u32 := 0;
    while i < a.numPlanes
      invariant i <= a.numPlanes
      invariant |events| == i
      invariant forall j :: 0 <= j < i ==> events[j] == Event(a.name, Departure, departDelays[j])
    {
      events := events + [Event(a.name, Departure, departDelays[i])];
      i := i + 1;
    }
  }

  function DigitChar(d: nat): (c: char)
    requires d < 10
    ensures '0' <= c <= '9'
  {
    "0123456789"[d]
  }

  function DigitValue(c: char): (d: nat)
    requires '0' <= c <= '9'
    ensures d < 10
  {
    (c - '0') as nat
  }

  /** `std::to_string` of an unsigned value: its decimal digits, most significant first, no leading zero. */
  function Decimal(n: nat): (s: string)
    ensures |s| > 0
    ensures forall i :: 0 <= i < |s| ==> '0' <= s[i] <= '9'
    ensures |s| > 1 ==> s[0] != '0'
    decreases n
  {
    if n < 10 then [DigitChar(n)] else Decimal(n / 10) + [DigitChar(n % 10)]
  }

  /** Reading a string of decimal digits back as a number. */
  function ParseDecimal(s: string): nat
    requires forall i :: 0 <= i < |s| ==> '0' <= s[i] <= '9'
  {
    if |s| == 0 then 0 else 10 * ParseDecimal(s[..|s| - 1]) + DigitValue(s[|s| - 1])
  }

  lemma DigitRoundTrip(d: nat)
    requires d < 10
    ensures DigitValue(DigitChar(d)) == d
  {
  }

  /** The digits `std::to_string` writes read back as the number written. */
  lemma {:induction false} ParseDecimalOfDecimal(n: nat)
    ensures ParseDecimal(Decimal(n)) == n
    decreases n
  {
    var s := Decimal(n);
    if n < 10 {
      DigitRoundTrip(n);
      assert s[..0] == [];
    } else {
      ParseDecimalOfDecimal(n / 10);
      DigitRoundTrip(n % 10);
      assert s[..|s| - 1] == Decimal(n / 10);
    }
  }

  /** Distinct numbers have distinct decimal renderings. */
  lemma DecimalInjective(m: nat, n: nat)
    requires Decimal(m) == Decimal(n)
    ensures m == n
  {
    ParseDecimalOfDecimal(m);
    ParseDecimalOfDecimal(n);
  }

  /** `object_name`: the name the kernel knows airport number `i` by. */
  function ObjectName(i: u32): (s: string)
    ensures |s| > 7 && s[..7] == "Object "
    ensures forall j :: 7 <= j < |s| ==> '0' <= s[j] <= '9'
    ensures ParseDecimal(s[7..]) == i
  {
    ParseDecimalOfDecimal(i);
    var s := "Object " + Decimal(i);
    assert s[7..] == Decimal(i);
    s
  }

  /** Distinct airport numbers name distinct airports. */
  lemma ObjectNameInjective(i: u32, j: u32)
    requires ObjectName(i) == ObjectName(j)
    ensures i == j
  {
  }

  /**
   * `receiveEvent`, given the truncated exponential flight and ground delays
   * and the uniform draw of the destination airport. The destination is drawn
   * from `0 .. num_airports - 1` computed in `unsigned int`, so for zero
   * airports that bound wraps to the largest `unsigned int`.
   */
  function ReceiveEvent(a: Airport, ev: Event, flightDelay: u32, groundDelay: u32, destIndex: u32): (r: Step)
    requires ev.kind == Departure ==> destIndex <= Sub32(a.numAirports, 1)
    ensures r.airport.name == a.name && r.airport.numAirports == a.numAirports
    ensures r.airport.numPlanes == a.numPlanes
    ensures |r.events| == 1
    ensures ev.kind == Departure ==>
      && r.airport.state.planesGrounded == a.state.planesGrounded - 1
      && r.airport.state.departures == a.state.departures + 1
      && r.airport.state.arrivals == a.state.arrivals
      && r.events[0].kind == Arrival
      && r.events[0].timestamp == Add32(ev.timestamp, flightDelay)
      && r.events[0].receiver == ObjectName(destIndex)
    ensures ev.kind == Arrival ==>
      && r.airport.state.arrivals == a.state.arrivals + 1
      && r.airport.state.planesGrounded == a.state.planesGrounded + 1
      && r.airport.state.departures == a.state.departures
      && r.events[0] == Event(a.name, Departure, Add32(ev.timestamp, groundDelay))
  {
    var s := a.state;
    match ev.kind
    case Departure =>
      Step(a.(state := s.(planesGrounded := s.planesGrounded - 1, departures := s.departures + 1)),
           [Event(ObjectName(destIndex), Arrival, Add32(ev.timestamp, flightDelay))])
    case Arrival =>
      Step(a.(state := s.(arrivals := s.arrivals + 1, planesGrounded := s.planesGrounded + 1)),
           [Event(a.name, Departure, Add32(ev.timestamp, groundDelay))])
  }

  /** The quantity every event leaves unchanged. */
  function Balance(c: Counters): int {
    c.planesGrounded + c.departures - c.arrivals
  }

  /** With at least one airport, an arrival is always addressed to an airport that exists. */
  lemma DestinationExists(a: Airport, ev: Event, flightDelay: u32, groundDelay: u32, destIndex: u32)
    requires ev.kind == Departure && destIndex <= Sub32(a.numAirports, 1)
    requires a.numAirports >= 1
    ensures exists d: u32 :: (d < a.numAirports &&
      ReceiveEvent(a, ev, flightDelay, groundDelay, destIndex).events[0].receiver == ObjectName(d))
  {
    assert destIndex < a.numAirports;
    assert ReceiveEvent(a, ev, flightDelay, groundDelay, destIndex).events[0].receiver == ObjectName(destIndex);
  }

  /** The inputs one event is handled with. */
  datatype Draws = Draws(flightDelay: u32, groundDelay: u32, destIndex: u32)

  ghost predicate Handleable(a: Airport, ev: Event, d: Draws) {
    ev.kind == Departure ==> d.destIndex <= Sub32(a.numAirports, 1)
  }

  /** How many of `evs` are of kind `k`. */
  function CountKind(evs: seq<Event>, k: EventKind): nat {
    if |evs| == 0 then 0 else (if evs[0].kind == k then 1 else 0) + CountKind(evs[1..], k)
  }

  /** Handleability of every event depends only on the airport count, which no event changes. */
  lemma HandleableTail(a: Airport, next: Airport, evs: seq<Event>, draws: seq<Draws>)
    requires |evs| == |draws| > 0 && next.numAirports == a.numAirports
    requires forall i :: 0 <= i < |evs| ==> Handleable(a, evs[i], draws[i])
    ensures forall i :: 0 <= i < |evs| - 1 ==> Handleable(next, evs[1..][i], draws[1..][i])
  {
    forall i | 0 <= i < |evs| - 1 ensures Handleable(next, evs[1..][i], draws[1..][i]) {
      assert Handleable(a, evs[i + 1], draws[i + 1]);
    }
  }

  /** The airport after handling `evs` in order, the i-th with `draws[i]`. */
  ghost function Run(a: Airport, evs: seq<Event>, draws: seq<Draws>): Airport
    requires |evs| == |draws|
    requires forall i :: 0 <= i < |evs| ==> Handleable(a, evs[i], draws[i])
    decreases |evs|
  {
    if |evs| == 0 then a
    else
      var d := draws[0];
      assert Handleable(a, evs[0], d);
      var next := ReceiveEvent(a, evs[0], d.flightDelay, d.groundDelay, d.destIndex).airport;
      HandleableTail(a, next, evs, draws);
      Run(next, evs[1..], draws[1..])
  }

  /**
   * Grounded planes plus departures minus arrivals is the same after any
   * sequence of events as before it, and the arrival and departure counters
   * grow by exactly the number of events of their kind.
   */
  lemma {:induction false} RunConservesBalance(a: Airport, evs: seq<Event>, draws: seq<Draws>)
    requires |evs| == |draws|
    requires forall i :: 0 <= i < |evs| ==> Handleable(a, evs[i], draws[i])
    ensures Balance(Run(a, evs, draws).state) == Balance(a.state)
    ensures Run(a, evs, draws).state.arrivals == a.state.arrivals + CountKind(evs, Arrival)
    ensures Run(a, evs, draws).state.departures == a.state.departures + CountKind(evs, Departure)
    decreases |evs|
  {
    if |evs| > 0 {
      var d := draws[0];
      assert Handleable(a, evs[0], d);
      var next := ReceiveEvent(a, evs[0], d.flightDelay, d.groundDelay, d.destIndex).airport;
      HandleableTail(a, next, evs, draws);
      RunConservesBalance(next, evs[1..], draws[1..]);
    }
  }
}

=== FILE: epidemic_location.dfy ===
/**
 * A `Location` logical process of the epidemic model: the events it
 * schedules for itself at start-up and its reaction to each of the three
 * event kinds. The collaborators whose code is not part of this model (the
 * disease reaction, the diffusion network's choices and the uniform draw of
 * the random factor) arrive as an `Outside` value.
 */
module EpidemicLocation {
  import opened Unsigned
  import opened PersonRecord
  import opened Wrappers
  import opened Population

  /**
   * What a migration event carries about its person: every field except the
   * arrival timestamp, which on receipt is the event's own timestamp.
   */
  datatype Migrant = Migrant(
    pid: u64,
    susceptibility: Float64,
    vaccinated: bool,
    infectionState: InfectionState,
    prevStateChangeTimestamp: u32)

  /** Filling the event's person fields from a resident. */
  function Board(p: Person): (m: Migrant)
    ensures Land(m, p.arrivalTimestamp) == p
  {
    Migrant(p.pid, p.susceptibility, p.vaccinated, p.infectionState, p.prevStateChangeTimestamp)
  }

  /** The `Person` the receiving location constructs from the event fields and the event timestamp. */
  function Land(m: Migrant, timestamp: u32): (p: Person)
    ensures p.arrivalTimestamp == timestamp
    ensures p.pid == m.pid && p.susceptibility == m.susceptibility && p.vaccinated == m.vaccinated
    ensures p.infectionState == m.infectionState && p.prevStateChangeTimestamp == m.prevStateChangeTimestamp
  {
    Person(m.pid, m.susceptibility, m.vaccinated, m.infectionState, timestamp, m.prevStateChangeTimestamp)
  }

  datatype EventKind =
    | DiseaseUpdateTrigger
    | DiffusionTrigger
    | Diffusion(migrant: Migrant)

  /** `EpidemicEvent`: receiver name, receive timestamp, kind and, for a migration, the person. */
  datatype Event = Event(receiver: string, timestamp: u32, kind: EventKind)

  datatype Location = Location(
    name: string,
    refreshInterval: u32,
    diffusionInterval: u32,
    residents: Residents)

  /** The population is a map keyed by person id. */
  ghost predicate WellFormed(loc: Location) {
    Ordered(loc.residents)
  }

  /**
   * The results of the calls `receiveEvent` makes into code outside this
   * model, for one event: the disease model's reaction, the random factor
   * drawn for it, and the diffusion network's destination, travel time and
   * picked resident index.
   */
  datatype Outside = Outside(
    reaction: (Residents, u32, Float64) -> Residents,
    randFactor: Float64,
    destination: string,
    travelTime: u32,
    pick: nat)

  /** A handler's outcome: the location afterwards and the events it sends. */
  datatype Step = Step(location: Location, events: seq<Event>)

  /** `initializeLP`: one trigger of each periodic kind, both addressed to the location itself. */
  function InitializeLP(loc: Location): (r: seq<Event>)
    ensures |r| == 2
    ensures forall e :: e in r ==> e.receiver == loc.name
    ensures r[0].kind == DiseaseUpdateTrigger && r[0].timestamp == loc.refreshInterval
    ensures r[1].kind == DiffusionTrigger && r[1].timestamp == loc.diffusionInterval
  {
    [ Event(loc.name, loc.refreshInterval, DiseaseUpdateTrigger),
      Event(loc.name, loc.diffusionInterval, DiffusionTrigger) ]
  }

  /** The population size as the `unsigned int` the handler stores it in. */
  function PersonCount(loc: Location): (c: u32)
    ensures c <= |loc.residents|
    ensures |loc.residents| < TWO_TO_THE_32 ==> c == |loc.residents|
  {
    Wrap32(|loc.residents|)
  }

  /** Whether a diffusion trigger moves somebody: a destination exists and the count is non-zero. */
  predicate Migrates(loc: Location, outside: Outside) {
    outside.destination != "" && PersonCount(loc) != 0
  }

  /**
   * What the handler needs from its inputs: the picked index is below the
   * population count it was asked for, and a location receiving a person is
   * a map keyed by id.
   */
  ghost predicate Receivable(loc: Location, ev: Event, outside: Outside) {
    && (ev.kind.DiffusionTrigger? && Migrates(loc, outside) ==> outside.pick < PersonCount(loc))
    && (ev.kind.Diffusion? ==> WellFormed(loc))
  }

  /**
   * `receiveEvent` on a disease-update trigger: the disease model reacts once
   * to the whole population at the event time with the drawn random factor,
   * and the trigger is rescheduled one refresh interval later.
   */
  function UpdateDisease(loc: Location, ts: u32, outside: Outside): (r: Step)
    ensures r.location.name == loc.name
    ensures r.location.refreshInterval == loc.refreshInterval
    ensures r.location.diffusionInterval == loc.diffusionInterval
    // the population afterwards is the reaction's output on the population before, at the event time
    ensures r.location.residents == outside.reaction(loc.residents, ts, outside.randFactor)
    ensures |r.events| == 1
    ensures r.events[0].receiver == loc.name && r.events[0].kind == DiseaseUpdateTrigger
    ensures r.events[0].timestamp == Add32(ts, loc.refreshInterval)
  {
    var reacted := outside.reaction(loc.residents, ts, outside.randFactor);
    Step(loc.(residents := reacted), [Event(loc.name, Add32(ts, loc.refreshInterval), DiseaseUpdateTrigger)])
  }

  /**
   * `receiveEvent` on a diffusion trigger. With a destination and a non-zero
   * count, the resident reached by advancing `pick` places in id order leaves
   * and is sent to the destination, to arrive after the travel time. The
   * trigger is always rescheduled one diffusion interval later, as the last
   * event sent.
   */
  function Diffuse(loc: Location, ts: u32, outside: Outside): (r: Step)
    requires Migrates(loc, outside) ==> outside.pick < PersonCount(loc)
    ensures r.location.name == loc.name
    ensures r.location.refreshInterval == loc.refreshInterval
    ensures r.location.diffusionInterval == loc.diffusionInterval
    ensures |r.events| > 0
    ensures r.events[|r.events| - 1] == Event(loc.name, Add32(ts, loc.diffusionInterval), DiffusionTrigger)
    // no destination or nobody to move: the population stays and only the reschedule is sent
    ensures !Migrates(loc, outside) ==> r.location.residents == loc.residents && |r.events| == 1
    // otherwise the picked resident leaves, everybody else stays in order, and the migration goes first
    ensures Migrates(loc, outside) ==>
      && |r.events| == 2
      && |r.location.residents| == |loc.residents| - 1
      && (forall i :: 0 <= i < |r.location.residents| ==>
            r.location.residents[i] == loc.residents[if i < outside.pick then i else i + 1])
      && multiset(r.location.residents) + multiset{loc.residents[outside.pick]} == multiset(loc.residents)
      && (WellFormed(loc) ==> WellFormed(r.location))
      && r.events[0] == Event(outside.destination, Add32(ts, outside.travelTime),
                              Diffusion(Board(loc.residents[outside.pick])))
  {
    var reschedule := Event(loc.name, Add32(ts, loc.diffusionInterval), DiffusionTrigger);
    if outside.destination != "" && PersonCount(loc) != 0 then
      var person := loc.residents[outside.pick];
      var migration := Event(outside.destination, Add32(ts, outside.travelTime), Diffusion(Board(person)));
      Step(loc.(residents := RemoveAt(loc.residents, outside.pick)), [migration, reschedule])
    else
      Step(loc, [reschedule])
  }

  /**
   * `receiveEvent` on a migration: the person is rebuilt with the event time
   * as arrival time and inserted under its id; nothing is sent. A new id
   * gains exactly that person; a known id keeps its resident and drops the
   * arrival.
   */
  function Arrive(loc: Location, ts: u32, migrant: Migrant): (r: Step)
    requires WellFormed(loc)
    ensures r.events == []
    ensures r.location.name == loc.name
    ensures r.location.refreshInterval == loc.refreshInterval
    ensures r.location.diffusionInterval == loc.diffusionInterval
    ensures WellFormed(r.location)
    ensures Pids(r.location.residents) == Pids(loc.residents) + {migrant.pid}
    ensures migrant.pid !in Pids(loc.residents) ==>
      multiset(r.location.residents) == multiset(loc.residents) + multiset{Land(migrant, ts)}
    ensures migrant.pid in Pids(loc.residents) ==> r.location.residents == loc.residents
  {
    var person := Land(migrant, ts);
    InsertEffect(loc.residents, person);
    Step(loc.(residents := Insert(loc.residents, person)), [])
  }

  /** `receiveEvent`: the three event kinds, each to its handler; a location keeps its name and intervals. */
  function ReceiveEvent(loc: Location, ev: Event, outside: Outside): (r: Step)
    requires Receivable(loc, ev, outside)
    ensures r.location.name == loc.name
    ensures r.location.refreshInterval == loc.refreshInterval
    ensures r.location.diffusionInterval == loc.diffusionInterval
  {
    match ev.kind
    case DiseaseUpdateTrigger => UpdateDisease(loc, ev.timestamp, outside)
    case DiffusionTrigger => Diffuse(loc, ev.timestamp, outside)
    case Diffusion(migrant) => Arrive(loc, ev.timestamp, migrant)
  }

  /** A migrant keeps every attribute across the move except the arrival timestamp, which becomes the event's. */
  lemma LandBoard(p: Person, timestamp: u32)
    ensures Land(Board(p), timestamp) == p.(arrivalTimestamp := timestamp)
    ensures Board(Land(Board(p), timestamp)) == Board(p)
  {
  }

  /**
   * No event makes a location hold two persons with one id, provided the
   * disease reaction (whose code is not part of this model) keeps its
   * population a map.
   */
  lemma ReceiveKeepsWellFormed(loc: Location, ev: Event, outside: Outside)
    requires WellFormed(loc) && Receivable(loc, ev, outside)
    requires ev.kind.DiseaseUpdateTrigger? ==>
      Ordered(outside.reaction(loc.residents, ev.timestamp, outside.randFactor))
    ensures WellFormed(ReceiveEvent(loc, ev, outside).location)
  {
  }

  /**
   * A migration between two locations with disjoint ids loses nobody and
   * duplicates nobody: the person leaving the first location is the one the
   * second inserts, changed only in its arrival timestamp, and the two id sets
   * stay disjoint with the same union.
   */
  lemma MigrationConserves(src: Location, dst: Location, trigger: Event, out: Outside, arrival: Outside)
    requires WellFormed(src) && WellFormed(dst)
    requires Pids(src.residents) !! Pids(dst.residents)
    requires trigger.kind.DiffusionTrigger? && Migrates(src, out) && out.pick < PersonCount(src)
    ensures
      var s := ReceiveEvent(src, trigger, out);
      var migration := s.events[0];
      var d := ReceiveEvent(dst, migration, arrival);
      var p := src.residents[out.pick];
      && migration.receiver == out.destination
      && migration.timestamp == Add32(trigger.timestamp, out.travelTime)
      && multiset(s.location.residents) + multiset(d.location.residents) + multiset{p}
         == multiset(src.residents) + multiset(dst.residents) + multiset{p.(arrivalTimestamp := migration.timestamp)}
      && Pids(s.location.residents) !! Pids(d.location.residents)
      && Pids(s.location.residents) + Pids(d.location.residents) == Pids(src.residents) + Pids(dst.residents)
  {
    var s := ReceiveEvent(src, trigger, out);
    var p := src.residents[out.pick];
    Departs(src, trigger, out);
    var migration := s.events[0];
    Arrives(dst, migration, arrival, p);
  }

  /** The source side of a migration: the picked resident leaves, with its id, and travels in the event. */
  lemma Departs(src: Location, trigger: Event, out: Outside)
    requires WellFormed(src)
    requires trigger.kind.DiffusionTrigger? && Migrates(src, out) && out.pick < PersonCount(src)
    ensures
      var s := ReceiveEvent(src, trigger, out);
      var p := src.residents[out.pick];
      && |s.events| == 2
      && s.events[0] == Event(out.destination, Add32(trigger.timestamp, out.travelTime), Diffusion(Board(p)))
      && multiset(s.location.residents) + multiset{p} == multiset(src.residents)
      && Pids(s.location.residents) == Pids(src.residents) - {p.pid}
      && p.pid in Pids(src.residents)
  {
    var s := ReceiveEvent(src, trigger, out);
    assert s == Diffuse(src, trigger.timestamp, out);
    RemoveAtKeys(src.residents, out.pick);
    PidsIndex(src.residents, out.pick);
  }

  /** The destination side of a migration: a person with a new id is added, stamped with the event time. */
  lemma Arrives(dst: Location, migration: Event, arrival: Outside, p: Person)
    requires WellFormed(dst) && migration.kind == Diffusion(Board(p)) && p.pid !in Pids(dst.residents)
    ensures
      var d := ReceiveEvent(dst, migration, arrival);
      && multiset(d.location.residents) == multiset(dst.residents) + multiset{p.(arrivalTimestamp := migration.timestamp)}
      && Pids(d.location.residents) == Pids(dst.residents) + {p.pid}
  {
    assert ReceiveEvent(dst, migration, arrival) == Arrive(dst, migration.timestamp, Board(p));
    LandBoard(p, migration.timestamp);
  }

  /**
   * The location after handling one disease-update trigger per element of
   * `outs`, each time handling the trigger the previous one rescheduled; the
   * events are the pending trigger.
   */
  ghost function DiseaseRounds(loc: Location, ev: Event, outs: seq<Outside>): Step
    requires ev.kind.DiseaseUpdateTrigger?
    decreases |outs|
  {
    if |outs| == 0 then Step(loc, [ev])
    else
      var s := ReceiveEvent(loc, ev, outs[0]);
      assert s == UpdateDisease(loc, ev.timestamp, outs[0]);
      DiseaseRounds(s.location, s.events[0], outs[1..])
  }

  /**
   * Disease updates recur with the refresh period: after `initializeLP` and
   * `j` handled triggers the pending one is self-addressed at
   * `(j + 1) * refresh_interval`, as an `unsigned int`.
   */
  lemma DiseaseTriggerPeriod(loc: Location, outs: seq<Outside>)
    ensures DiseaseRounds(loc, InitializeLP(loc)[0], outs).events
      == [Event(loc.name, Wrap32((|outs| + 1) * loc.refreshInterval), DiseaseUpdateTrigger)]
  {
    var first := InitializeLP(loc)[0];
    assert first == Event(loc.name, loc.refreshInterval, DiseaseUpdateTrigger);
    assert Wrap32(1 * loc.refreshInterval) == loc.refreshInterval;
    DiseaseRoundsFrom(loc, 1, outs);
    assert 1 + |outs| == |outs| + 1;
  }

  lemma {:induction false} DiseaseRoundsFrom(loc: Location, j: nat, outs: seq<Outside>)
    ensures
      var ev := Event(loc.name, Wrap32(j * loc.refreshInterval), DiseaseUpdateTrigger);
      DiseaseRounds(loc, ev, outs).events
        == [Event(loc.name, Wrap32((j + |outs|) * loc.refreshInterval), DiseaseUpdateTrigger)]
    decreases |outs|
  {
    if |outs| > 0 {
      var ev := Event(loc.name, Wrap32(j * loc.refreshInterval), DiseaseUpdateTrigger);
      var s := ReceiveEvent(loc, ev, outs[0]);
      DiseaseStep(loc, j * loc.refreshInterval, outs[0]);
      assert j * loc.refreshInterval + loc.refreshInterval == (j + 1) * loc.refreshInterval;
      DiseaseRoundsFrom(s.location, j + 1, outs[1..]);
      assert j + 1 + |outs[1..]| == j + |outs|;
    }
  }

  /** One handled trigger moves the pending one a refresh interval later, wrapping as `unsigned int`. */
  lemma DiseaseStep(loc: Location, x: int, out: Outside)
    ensures
      var s := ReceiveEvent(loc, Event(loc.name, Wrap32(x), DiseaseUpdateTrigger), out);
      && s.location.name == loc.name
      && s.location.refreshInterval == loc.refreshInterval
      && s.events == [Event(loc.name, Wrap32(x + loc.refreshInterval), DiseaseUpdateTrigger)]
  {
    var ev := Event(loc.name, Wrap32(x), DiseaseUpdateTrigger);
    assert ReceiveEvent(loc, ev, out) == UpdateDisease(loc, ev.timestamp, out);
    AddAfterWrap(x, loc.refreshInterval);
  }

  /**
   * A location with one resident and a neighbour at travel time 15: a
   * diffusion trigger at time 100 that selects that resident empties the
   * location and sends the person to the neighbour for time 115.
   */
  lemma SingleResidentMigrates(p: Person, out: Outside)
    requires out.destination == "Y" && out.travelTime == 15 && out.pick == 0
    ensures
      var x := Location("X", 10, 20, [p]);
      var s := ReceiveEvent(x, Event("X", 100, DiffusionTrigger), out);
      && s.location.residents == []
      && s.events == [Event("Y", 115, Diffusion(Board(p))), Event("X", 120, DiffusionTrigger)]
  {
  }

  /** An isolated location keeps all three residents and only reschedules its trigger. */
  lemma IsolatedLocationKeepsResidents(a: Person, b: Person, c: Person, out: Outside)
    requires out.destination == ""
    ensures
      var x := Location("X", 10, 20, [a, b, c]);
      var s := ReceiveEvent(x, Event("X", 100, DiffusionTrigger), out);
      && s.location.residents == [a, b, c]
      && s.events == [Event("X", 120, DiffusionTrigger)]
  {
  }
}

=== FILE: person.dfy ===
/**
 * The `Person` value carried by migrations, and the order in which its
 * fields are written to and read back from a serialisation archive.
 */
module PersonRecord {
  import opened Wrappers
  import opened Unsigned

  /** `infection_state_t`: the six compartments a person can be in. */
  datatype InfectionState =
    | Uninfected
    | Latent
    | Incubating
    | Infectious
    | Asymptomatic
    | Recovered

  /** `MAX_INFECTION_STATE_NUM`: the enumerator after the last state, used as a count. */
  const MAX_INFECTION_STATE_NUM: nat := 6

  /** The enumerator value the C++ enum gives each state (UNINFECTED = 0, then consecutive). */
  function Ordinal(s: InfectionState): (r: nat)
    ensures r < MAX_INFECTION_STATE_NUM
  {
    match s
    case Uninfected => 0
    case Latent => 1
    case Incubating => 2
    case Infectious => 3
    case Asymptomatic => 4
    case Recovered => 5
  }

  /** The state an enumerator value names, if it names one. */
  function FromOrdinal(n: int): (r: Option<InfectionState>)
    ensures r.Some? <==> 0 <= n < MAX_INFECTION_STATE_NUM
    ensures r.Some? ==> Ordinal(r.value) == n
  {
    if n == 0 then Some(Uninfected)
    else if n == 1 then Some(Latent)
    else if n == 2 then Some(Incubating)
    else if n == 3 then Some(Infectious)
    else if n == 4 then Some(Asymptomatic)
    else if n == 5 then Some(Recovered)
    else None
  }

  /** Enumerator values and states are in one-to-one correspondence over 0 .. 5. */
  lemma OrdinalRoundTrip(s: InfectionState)
    ensures FromOrdinal(Ordinal(s)) == Some(s)
  {
  }

  /** Distinct states have distinct enumerator values. */
  lemma OrdinalInjective(s: InfectionState, t: InfectionState)
    requires Ordinal(s) == Ordinal(t)
    ensures s == t
  {
    OrdinalRoundTrip(s);
    OrdinalRoundTrip(t);
  }

  /**
   * Bit pattern of a C++ `double`. The model never computes with
   * susceptibilities; it only copies them, which is exact on the bits.
   */
  type Float64 = bv64

  /**
   * `Person`. The datatype constructor is the C++ constructor: each argument
   * lands unchanged in the field of the same position.
   */
  datatype Person = Person(
    pid: u64,
    susceptibility: Float64,
    vaccinated: bool,
    infectionState: InfectionState,
    arrivalTimestamp: u32,
    prevStateChangeTimestamp: u32)

  /** One value written to an archive, tagged with the C++ type it was written as. */
  datatype Field =
    | ULong(ul: u64)
    | Double(bits: Float64)
    | Bool(b: bool)
    | Enum(ordinal: int)
    | UInt(ui: u32)

  type Archive = seq<Field>

  /**
   * The serialisable members, in registration order: pid, susceptibility,
   * vaccination status, infection state, arrival timestamp, previous
   * state-change timestamp.
   */
  function Save(p: Person): (a: Archive)
    ensures |a| == 6
    ensures a[0].ULong? && a[0].ul == p.pid
    ensures a[1].Double? && a[1].bits == p.susceptibility
    ensures a[2].Bool? && a[2].b == p.vaccinated
    ensures a[3].Enum? && FromOrdinal(a[3].ordinal) == Some(p.infectionState)
    ensures a[4].UInt? && a[4].ui == p.arrivalTimestamp
    ensures a[5].UInt? && a[5].ui == p.prevStateChangeTimestamp
  {
    [ ULong(p.pid), Double(p.susceptibility), Bool(p.vaccinated),
      Enum(Ordinal(p.infectionState)), UInt(p.arrivalTimestamp),
      UInt(p.prevStateChangeTimestamp) ]
  }

  /** Why an archive could not be read back into a `Person`. */
  datatype LoadError = Truncated | WrongFieldType(position: nat) | UnknownInfectionState(ordinal: int)

  /**
   * `load_and_construct`: reads six fields in the order `Save` wrote them and
   * passes them to the constructor in that same order. Returns the person
   * and the unread rest of the archive.
   */
  function Load(a: Archive): (r: Result<(Person, Archive), LoadError>)
    ensures r.Success? ==> |a| >= 6 && a[6..] == r.value.1
    ensures |a| < 6 ==> r == Failure(Truncated)
  {
    if |a| < 6 then Failure(Truncated)
    else if !a[0].ULong? then Failure(WrongFieldType(0))
    else if !a[1].Double? then Failure(WrongFieldType(1))
    else if !a[2].Bool? then Failure(WrongFieldType(2))
    else if !a[3].Enum? then Failure(WrongFieldType(3))
    else if !a[4].UInt? then Failure(WrongFieldType(4))
    else if !a[5].UInt? then Failure(WrongFieldType(5))
    else
      match FromOrdinal(a[3].ordinal)
      case None => Failure(UnknownInfectionState(a[3].ordinal))
      case Some(state) =>
        Success((Person(a[0].ul, a[1].bits, a[2].b, state, a[4].ui, a[5].ui), a[6..]))
  }

  /** Saving then loading gives back a field-for-field equal person and leaves what follows unread. */
  lemma LoadSave(p: Person, rest: Archive)
    ensures Load(Save(p) + rest) == Success((p, rest))
  {
    var a := Save(p) + rest;
    assert a[6..] == rest;
    OrdinalRoundTrip(p.infectionState);
  }

  /** Conversely, whatever loads as `p` began with exactly the fields `Save(p)` writes. */
  lemma SaveLoad(a: Archive, p: Person, rest: Archive)
    requires Load(a) == Success((p, rest))
    ensures a == Save(p) + rest
  {
    assert a[..6] + a[6..] == a;
    assert a[..6] == Save(p);
  }
}

=== FILE: population.dfy ===
/**
 * A location's residents: the source keeps them in a `std::map` from person
 * id to person, so iteration visits them in increasing id order and an id
 * is never held twice. The model is that iteration sequence.
 */
module Population {
  import opened PersonRecord

  type Residents = seq<Person>

  /** Strictly increasing ids: the iteration order of a map keyed by id, hence no id twice. */
  ghost predicate Ordered(pop: Residents) {
    forall i, j :: 0 <= i < j < |pop| ==> pop[i].pid < pop[j].pid
  }

  /** The keys of the map. */
  ghost function Pids(pop: Residents): set<nat> {
    if |pop| == 0 then {} else {pop[0].pid} + Pids(pop[1..])
  }

  /** In id order, an id below the first one is not a key. */
  lemma {:induction false} PidsAbove(pop: Residents, bound: nat)
    requires Ordered(pop) && |pop| > 0 && bound < pop[0].pid
    ensures bound !in Pids(pop)
  {
    if |pop| > 1 {
      PidsAbove(pop[1..], bound);
    }
  }

  /** Every resident's id is a key. */
  lemma {:induction false} PidsIndex(pop: Residents, i: nat)
    requires i < |pop|
    ensures pop[i].pid in Pids(pop)
  {
    if i > 0 {
      PidsIndex(pop[1..], i - 1);
      assert pop[1..][i - 1] == pop[i];
    }
  }

  /** Every key of a population whose ids all exceed `bound` exceeds `bound`. */
  lemma {:induction false} KeysAbove(s: Residents, bound: nat)
    requires forall i :: 0 <= i < |s| ==> bound < s[i].pid
    ensures forall y :: y in Pids(s) ==> bound < y
  {
    if |s| > 0 {
      KeysAbove(s[1..], bound);
    }
  }

  /** `erase` at the iterator reached by advancing `begin()` `p` times: the p-th resident leaves. */
  function RemoveAt(pop: Residents, p: nat): (r: Residents)
    requires p < |pop|
    ensures |r| == |pop| - 1
    ensures forall i :: 0 <= i < |r| ==> r[i] == if i < p then pop[i] else pop[i + 1]
    ensures multiset(r) + multiset{pop[p]} == multiset(pop)
    ensures Ordered(pop) ==> Ordered(r)
  {
    SpliceMultiset(pop, p);
    SpliceOrdered(pop, p);
    pop[..p] + pop[p + 1..]
  }

  lemma SpliceMultiset(pop: Residents, p: nat)
    requires p < |pop|
    ensures multiset(pop[..p] + pop[p + 1..]) + multiset{pop[p]} == multiset(pop)
  {
    assert pop == pop[..p] + [pop[p]] + pop[p + 1..];
  }

  lemma SpliceOrdered(pop: Residents, p: nat)
    requires p < |pop|
    ensures Ordered(pop) ==> Ordered(pop[..p] + pop[p + 1..])
  {
    var r := pop[..p] + pop[p + 1..];
    if Ordered(pop) {
      forall i, j | 0 <= i < j < |r| ensures r[i].pid < r[j].pid {
        var i', j' := if i < p then i else i + 1, if j < p then j else j + 1;
        assert r[i] == pop[i'] && r[j] == pop[j'];
      }
    }
  }

  lemma PidsCons(x: Person, s: Residents)
    ensures Pids([x] + s) == {x.pid} + Pids(s)
  {
    assert ([x] + s)[1..] == s;
  }

  lemma RemoveAtCons(pop: Residents, p: nat)
    requires 0 < p < |pop|
    ensures RemoveAt(pop, p) == [pop[0]] + RemoveAt(pop[1..], p - 1)
  {
    var r, tail := RemoveAt(pop, p), RemoveAt(pop[1..], p - 1);
    assert |r| == |[pop[0]] + tail|;
    forall i | 0 <= i < |r| ensures r[i] == ([pop[0]] + tail)[i] {
      if i > 0 { assert ([pop[0]] + tail)[i] == tail[i - 1]; }
    }
  }

  /** Erasing removes exactly the erased resident's id from the keys. */
  lemma {:induction false} RemoveAtKeys(pop: Residents, p: nat)
    requires Ordered(pop) && p < |pop|
    ensures Pids(RemoveAt(pop, p)) == Pids(pop) - {pop[p].pid}
  {
    if p == 0 {
      RemoveFirstKeys(pop);
    } else {
      var tail := RemoveAt(pop[1..], p - 1);
      RemoveAtKeys(pop[1..], p - 1);
      assert pop[1..][p - 1] == pop[p];
      assert pop[0].pid < pop[p].pid;
      RemoveLaterKeys(pop, p, tail);
    }
  }

  lemma RemoveFirstKeys(pop: Residents)
    requires Ordered(pop) && 0 < |pop|
    ensures Pids(RemoveAt(pop, 0)) == Pids(pop) - {pop[0].pid}
  {
    assert RemoveAt(pop, 0) == pop[1..];
    if |pop| > 1 { PidsAbove(pop[1..], pop[0].pid); }
  }

  lemma RemoveLaterKeys(pop: Residents, p: nat, tail: Residents)
    requires 0 < p < |pop| && pop[0].pid != pop[p].pid
    requires tail == RemoveAt(pop[1..], p - 1)
    requires Pids(tail) == Pids(pop[1..]) - {pop[p].pid}
    ensures Pids(RemoveAt(pop, p)) == Pids(pop) - {pop[p].pid}
  {
    RemoveAtCons(pop, p);
    PidsCons(pop[0], tail);
    HeadTail(pop);
    PidsCons(pop[0], pop[1..]);
  }

  lemma HeadTail(pop: Residents)
    requires 0 < |pop|
    ensures [pop[0]] + pop[1..] == pop
  {
  }

  /** Putting a smaller id in front keeps the id order. */
  lemma OrderedCons(x: Person, s: Residents)
    requires Ordered(s) && (|s| > 0 ==> x.pid < s[0].pid)
    ensures Ordered([x] + s)
  {
    var r := [x] + s;
    forall i, j | 0 <= i < j < |r| ensures r[i].pid < r[j].pid {
      if i == 0 && j > 1 { assert r[j] == s[j - 1]; assert s[0].pid < s[j - 1].pid; }
    }
  }

  /**
   * `insert` keyed by `q.pid`: `q` takes its place in id order, and afterwards
   * `q.pid` is a key. Whether an existing entry is kept is stated by
   * `InsertPresent` and `InsertAbsent`.
   */
  function Insert(pop: Residents, q: Person): (r: Residents)
    requires Ordered(pop)
    ensures Ordered(r)
    ensures Pids(r) == Pids(pop) + {q.pid}
  {
    if |pop| == 0 then [q]
    else if pop[0].pid == q.pid then pop
    else if q.pid < pop[0].pid then
      OrderedCons(q, pop);
      assert ([q] + pop)[1..] == pop;
      [q] + pop
    else
      var tail := Insert(pop[1..], q);
      assert 0 < |tail| by { assert q.pid in Pids(tail); }
      PidsIndex(tail, 0);
      KeysAbove(pop[1..], pop[0].pid);
      OrderedCons(pop[0], tail);
      var r := [pop[0]] + tail;
      assert r[1..] == tail;
      r
  }

  /** When the id is already a key, `insert` leaves the map as it was and `q` is dropped. */
  lemma {:induction false} InsertPresent(pop: Residents, q: Person)
    requires Ordered(pop) && q.pid in Pids(pop)
    ensures Insert(pop, q) == pop
  {
    if pop[0].pid != q.pid {
      assert q.pid in Pids(pop[1..]);
      if q.pid < pop[0].pid {
        PidsAbove(pop, q.pid);
      } else {
        InsertPresent(pop[1..], q);
        HeadTail(pop);
      }
    }
  }

  /** When the id is new, `insert` adds exactly `q`. */
  lemma {:induction false} InsertAbsent(pop: Residents, q: Person)
    requires Ordered(pop) && q.pid !in Pids(pop)
    ensures multiset(Insert(pop, q)) == multiset(pop) + multiset{q}
    ensures |Insert(pop, q)| == |pop| + 1
  {
    if |pop| > 0 && pop[0].pid < q.pid {
      InsertAbsent(pop[1..], q);
      HeadTail(pop);
    }
  }
  /** What `insert` does in either case: a known id keeps the map as it was, a new id adds exactly `q`. */
  lemma InsertEffect(pop: Residents, q: Person)
    requires Ordered(pop)
    ensures q.pid in Pids(pop) ==> Insert(pop, q) == pop
    ensures q.pid !in Pids(pop) ==> multiset(Insert(pop, q)) == multiset(pop) + multiset{q}
  {
    if q.pid in Pids(pop) {
      InsertPresent(pop, q);
    } else {
      InsertAbsent(pop, q);
    }
  }

  /** Inserting behind a smaller head leaves the head in place. */
  lemma InsertBehindHead(x: Person, s: Residents, q: Person)
    requires Ordered([x] + s) && x.pid < q.pid
    ensures Ordered(s)
    ensures Insert([x] + s, q) == [x] + Insert(s, q)
  {
    assert ([x] + s)[1..] == s;
  }

  /** Putting the first resident back in front of the others. */
  lemma InsertFirstBack(pop: Residents)
    requires Ordered(pop) && 0 < |pop|
    ensures Ordered(pop[1..])
    ensures Insert(pop[1..], pop[0]) == pop
  {
    if |pop| > 1 {
      assert pop[0].pid < pop[1..][0].pid;
    }
    HeadTail(pop);
  }

  /** Putting a later resident back behind the unchanged first one. */
  lemma InsertLaterBack(pop: Residents, p: nat, tail: Residents)
    requires Ordered(pop) && 0 < p < |pop|
    requires tail == RemoveAt(pop[1..], p - 1) && Ordered(tail)
    requires Insert(tail, pop[p]) == pop[1..]
    ensures Insert(RemoveAt(pop, p), pop[p]) == pop
  {
    var r := RemoveAt(pop, p);
    RemoveAtCons(pop, p);
    assert Ordered(r) && r == [pop[0]] + tail;
    assert pop[0].pid < pop[p].pid;
    InsertBehindHead(pop[0], tail, pop[p]);
    assert Insert(r, pop[p]) == [pop[0]] + pop[1..];
    HeadTail(pop);
  }

  /** Taking a resident out and putting the same person back restores the population exactly. */
  lemma {:induction false} InsertAfterRemove(pop: Residents, p: nat)
    requires Ordered(pop) && p < |pop|
    ensures Insert(RemoveAt(pop, p), pop[p]) == pop
  {
    if p == 0 {
      assert RemoveAt(pop, p) == pop[1..];
      InsertFirstBack(pop);
    } else {
      var tail := RemoveAt(pop[1..], p - 1);
      SpliceOrdered(pop, 0);
      InsertAfterRemove(pop[1..], p - 1);
      assert pop[1..][p - 1] == pop[p];
      InsertLaterBack(pop, p, tail);
    }
  }
}

=== FILE: ring_lattice.dfy ===
/**
 * The ring lattice of the Watts-Strogatz generator, as index arithmetic:
 * which nodes a node writes links to, and what that set is on a ring.
 */
module RingLattice {
  import opened Unsigned

  /** `(index + num_nodes - node_index) % num_nodes`, evaluated in `unsigned int`. */
  function LeftIndex(n: nat, i: nat, d: nat): (r: nat)
    requires 0 < n
    ensures r < n
  {
    Wrap32(i + n - d) % n
  }

  /** `(index + node_index) % num_nodes`, evaluated in `unsigned int`. */
  function RightIndex(n: nat, i: nat, d: nat): (r: nat)
    requires 0 < n
    ensures r < n
  {
    Wrap32(i + d) % n
  }

  /** The counter-clockwise targets of node `i` for offsets 1 .. d. */
  ghost function LeftTargets(n: nat, i: nat, d: nat): set<nat>
    requires 0 < n
  {
    if d == 0 then {} else LeftTargets(n, i, d - 1) + {LeftIndex(n, i, d)}
  }

  /** The clockwise targets of node `i` for offsets 1 .. d. */
  ghost function RightTargets(n: nat, i: nat, d: nat): set<nat>
    requires 0 < n
  {
    if d == 0 then {} else RightTargets(n, i, d - 1) + {RightIndex(n, i, d)}
  }

  /** Node `i` writes a link to `j`: `k/2` counter-clockwise offsets, `k - k/2` clockwise ones. */
  ghost predicate Reaches(n: nat, k: nat, i: nat, j: nat)
    requires 0 < n
  {
    j in LeftTargets(n, i, k / 2) || j in RightTargets(n, i, k - k / 2)
  }

  /** The lattice link between `a` and `b`: every write is mirrored, so either end may have made it. */
  ghost predicate LatticeEdge(n: nat, k: nat, a: nat, b: nat)
    requires 0 < n
  {
    Reaches(n, k, a, b) || Reaches(n, k, b, a)
  }

  // ---------------------------------------------------------------------
  // The lattice on a ring
  // ---------------------------------------------------------------------

  /** The node count and degree are small enough that no `unsigned int` sum of the lattice wraps. */
  ghost predicate NoWrap(n: nat, k: nat) {
    0 < n && 2 * n + k <= TWO_TO_THE_32
  }

  /** `a + d` around a ring of `n` nodes, for `a < n` and `d <= n`. */
  function Plus(n: nat, a: nat, d: nat): nat {
    if a + d < n then a + d else a + d - n
  }

  /** `a - d` around a ring of `n` nodes, for `a < n` and `d <= n`. */
  function Minus(n: nat, a: nat, d: nat): int {
    if a >= d then a - d else a - d + n
  }

  /** The number of steps between `a` and `b` on a ring of `n` nodes, going whichever way is shorter. */
  function RingDistance(n: nat, a: nat, b: nat): (r: int)
    requires a < n && b < n
    ensures 0 <= r <= n / 2
    ensures r == 0 <==> a == b
  {
    var forward := if b >= a then b - a else b - a + n;
    if forward <= n - forward then forward else n - forward
  }

  lemma ModFold(x: int, n: int)
    requires 0 < n && 0 <= x < 2 * n
    ensures x % n == if x < n then x else x - n
  {
    if x >= n {
      assert x == 1 * n + (x - n);
    }
  }

  /** Without wrap-around the source's counter-clockwise index is `i - d` around the ring. */
  lemma LeftIndexOnRing(n: nat, i: nat, d: nat)
    requires i < n && 1 <= d <= n && 2 * n <= TWO_TO_THE_32
    ensures LeftIndex(n, i, d) == Minus(n, i, d)
  {
    ModFold(i + n - d, n);
  }

  /** Without wrap-around the source's clockwise index is `i + d` around the ring. */
  lemma RightIndexOnRing(n: nat, i: nat, d: nat)
    requires i < n && d <= n && n + d <= TWO_TO_THE_32
    ensures RightIndex(n, i, d) == Plus(n, i, d)
  {
    ModFold(i + d, n);
  }

  lemma {:induction false} LeftTargetOffset(n: nat, i: nat, d: nat, x: nat) returns (e: nat)
    requires 0 < n && x in LeftTargets(n, i, d)
    ensures 1 <= e <= d && x == LeftIndex(n, i, e)
    decreases d
  {
    if x == LeftIndex(n, i, d) {
      e := d;
    } else {
      e := LeftTargetOffset(n, i, d - 1, x);
    }
  }

  lemma {:induction false} RightTargetOffset(n: nat, i: nat, d: nat, x: nat) returns (e: nat)
    requires 0 < n && x in RightTargets(n, i, d)
    ensures 1 <= e <= d && x == RightIndex(n, i, e)
    decreases d
  {
    if x == RightIndex(n, i, d) {
      e := d;
    } else {
      e := RightTargetOffset(n, i, d - 1, x);
    }
  }

  lemma {:induction false} LeftTargetOf(n: nat, i: nat, d: nat, e: nat)
    requires 0 < n && 1 <= e <= d
    ensures LeftIndex(n, i, e) in LeftTargets(n, i, d)
    decreases d
  {
    if e < d {
      LeftTargetOf(n, i, d - 1, e);
    }
  }

  lemma {:induction false} RightTargetOf(n: nat, i: nat, d: nat, e: nat)
    requires 0 < n && 1 <= e <= d
    ensures RightIndex(n, i, e) in RightTargets(n, i, d)
    decreases d
  {
    if e < d {
      RightTargetOf(n, i, d - 1, e);
    }
  }

  lemma DistanceOfPlus(n: nat, a: nat, d: nat)
    requires a < n && 1 <= d && 2 * d < n
    ensures Plus(n, a, d) < n && RingDistance(n, a, Plus(n, a, d)) == d
  {
  }

  lemma DistanceOfMinus(n: nat, a: nat, d: nat)
    requires a < n && 1 <= d && 2 * d < n
    ensures 0 <= Minus(n, a, d) < n && RingDistance(n, a, Minus(n, a, d)) == d
  {
  }

  lemma DistanceSymmetric(n: nat, a: nat, b: nat)
    requires a < n && b < n
    ensures RingDistance(n, a, b) == RingDistance(n, b, a)
  {
  }

  /** Every node at distance `d` is `d` steps one way or the other. */
  lemma AtDistance(n: nat, a: nat, b: nat)
    requires a < n && b < n
    ensures var d := RingDistance(n, a, b); b == Plus(n, a, d) || b == Minus(n, a, d)
  {
  }

  /**
   * With the ring wide enough that the two half-neighbourhoods cannot meet
   * (n > 2 (k - k/2)), a lattice link joins exactly the nodes at ring
   * distance 1 .. k - k/2: the `k/2` counter-clockwise links written by one
   * end are the clockwise links of the other.
   */
  lemma LatticeNeighbours(n: nat, k: nat, a: nat, b: nat)
    requires a < n && b < n && NoWrap(n, k) && 2 * (k - k / 2) < n
    ensures LatticeEdge(n, k, a, b) <==> 1 <= RingDistance(n, a, b) <= k - k / 2
  {
    if LatticeEdge(n, k, a, b) {
      EdgeWithinDistance(n, k, a, b);
    }
    if 1 <= RingDistance(n, a, b) <= k - k / 2 {
      DistanceGivesEdge(n, k, a, b);
    }
  }

  /** Every offset a lattice link was written with is a ring distance of 1 .. k - k/2. */
  lemma EdgeWithinDistance(n: nat, k: nat, a: nat, b: nat)
    requires a < n && b < n && NoWrap(n, k) && 2 * (k - k / 2) < n
    requires LatticeEdge(n, k, a, b)
    ensures 1 <= RingDistance(n, a, b) <= k - k / 2
  {
    var left, right := k / 2, k - k / 2;
    if b in LeftTargets(n, a, left) {
      var e := LeftTargetOffset(n, a, left, b);
      LeftIndexOnRing(n, a, e);
      DistanceOfMinus(n, a, e);
    } else if b in RightTargets(n, a, right) {
      var e := RightTargetOffset(n, a, right, b);
      RightIndexOnRing(n, a, e);
      DistanceOfPlus(n, a, e);
    } else if a in LeftTargets(n, b, left) {
      var e := LeftTargetOffset(n, b, left, a);
      LeftIndexOnRing(n, b, e);
      DistanceOfMinus(n, b, e);
      DistanceSymmetric(n, a, b);
    } else {
      var e := RightTargetOffset(n, b, right, a);
      RightIndexOnRing(n, b, e);
      DistanceOfPlus(n, b, e);
      DistanceSymmetric(n, a, b);
    }
  }

  /** Every pair at ring distance 1 .. k - k/2 is written by one of its ends. */
  lemma DistanceGivesEdge(n: nat, k: nat, a: nat, b: nat)
    requires a < n && b < n && NoWrap(n, k) && 2 * (k - k / 2) < n
    requires 1 <= RingDistance(n, a, b) <= k - k / 2
    ensures LatticeEdge(n, k, a, b)
  {
    var left, right := k / 2, k - k / 2;
    var d := RingDistance(n, a, b);
    AtDistance(n, a, b);
    if b == Plus(n, a, d) {
      RightIndexOnRing(n, a, d);
      RightTargetOf(n, a, right, d);
    } else if d <= left {
      LeftIndexOnRing(n, a, d);
      LeftTargetOf(n, a, left, d);
    } else {
      assert a == Plus(n, b, d);
      RightIndexOnRing(n, b, d);
      RightTargetOf(n, b, right, d);
    }
  }

  /**
   * No node links to itself once the ring is longer than the clockwise
   * half-degree: every offset written is a non-zero step smaller than the
   * ring.
   */
  lemma LatticeNoSelfLoop(n: nat, k: nat, a: nat)
    requires a < n && NoWrap(n, k) && k - k / 2 < n
    ensures !LatticeEdge(n, k, a, a)
  {
    if a in LeftTargets(n, a, k / 2) {
      var e := LeftTargetOffset(n, a, k / 2, a);
      LeftIndexOnRing(n, a, e);
    }
    if a in RightTargets(n, a, k - k / 2) {
      var e := RightTargetOffset(n, a, k - k / 2, a);
      RightIndexOnRing(n, a, e);
    }
  }

  /** The nodes 1 .. r steps away from `a`, either way round. */
  ghost function RingBall(n: nat, a: nat, r: nat): set<int> {
    if r == 0 then {} else RingBall(n, a, r - 1) + {Plus(n, a, r), Minus(n, a, r)}
  }

  lemma {:induction false} RingBallMembers(n: nat, a: nat, r: nat, x: int)
    requires a < n && 2 * r < n
    ensures x in RingBall(n, a, r) <==> 0 <= x < n && 1 <= RingDistance(n, a, x) <= r
    decreases r
  {
    if r > 0 {
      RingBallMembers(n, a, r - 1, x);
      DistanceOfPlus(n, a, r);
      DistanceOfMinus(n, a, r);
      if 0 <= x < n && RingDistance(n, a, x) == r {
        AtDistance(n, a, x);
      }
    }
  }

  lemma {:induction false} RingBallSize(n: nat, a: nat, r: nat)
    requires a < n && 2 * r < n
    ensures |RingBall(n, a, r)| == 2 * r
    decreases r
  {
    if r > 0 {
      RingBallSize(n, a, r - 1);
      DistanceOfPlus(n, a, r);
      DistanceOfMinus(n, a, r);
      RingBallMembers(n, a, r - 1, Plus(n, a, r));
      RingBallMembers(n, a, r - 1, Minus(n, a, r));
      assert Plus(n, a, r) != Minus(n, a, r);
    }
  }

  /** The nodes a lattice link joins to `a`. */
  ghost function LatticeNeighbourSet(n: nat, k: nat, a: nat): set<nat>
    requires 0 < n
  {
    set b: nat | b < n && LatticeEdge(n, k, a, b)
  }

  /**
   * Each node has exactly 2 (k - k/2) lattice neighbours: `k` when `k` is
   * even, `k + 1` when it is odd (the odd offset is written on one side and
   * mirrored onto the other).
   */
  lemma LatticeDegree(n: nat, k: nat, a: nat)
    requires a < n && NoWrap(n, k) && 2 * (k - k / 2) < n
    ensures |LatticeNeighbourSet(n, k, a)| == 2 * (k - k / 2)
    ensures k % 2 == 0 ==> |LatticeNeighbourSet(n, k, a)| == k
  {
    var right := k - k / 2;
    forall x: int
      ensures x in RingBall(n, a, right) <==> x >= 0 && x in LatticeNeighbourSet(n, k, a)
    {
      RingBallMembers(n, a, right, x);
      if 0 <= x < n {
        LatticeNeighbours(n, k, a, x);
      }
    }
    var ball := RingBall(n, a, right);
    assert LatticeNeighbourSet(n, k, a) == set x: nat | x in ball;
    assert ball == set x: nat | x in ball;
    RingBallSize(n, a, right);
  }

  /** Six nodes of degree four: node 0 links to 1, 2, 4 and 5. */
  lemma SixNodesDegreeFour(b: nat)
    requires b < 6
    ensures LatticeEdge(6, 4, 0, b) <==> b in {1, 2, 4, 5}
  {
    LatticeNeighbours(6, 4, 0, b);
  }
}

=== FILE: travel_map.dfy ===
/**
 * The wiring at the end of the epidemic model's start-up: the contact graph
 * is generated over the locations in configuration order, and every
 * location receives a travel-time table over its graph neighbours, each
 * entry being that neighbour's own travel time to the hub.
 */
module TravelMap {
  import opened Wrappers
  import opened Unsigned
  import opened RingLattice
  import opened WattsStrogatz

  /** What start-up keeps of a configured location for the wiring: its name and travel time to the hub. */
  datatype LocationConfig = LocationConfig(name: string, travelTimeToHub: u32)

  /** The node list handed to the generator: location names in configuration order. */
  function Names(locs: seq<LocationConfig>): (r: seq<string>)
    ensures |r| == |locs|
    ensures forall i :: 0 <= i < |locs| ==> r[i] == locs[i].name
  {
    seq(|locs|, i requires 0 <= i < |locs| => locs[i].name)
  }

  /** Any position satisfying the three properties of `FirstIndex` is the one it returns. */
  lemma FirstIndexUnique(names: seq<string>, name: string, p: nat)
    requires p <= |names|
    requires p < |names| ==> names[p] == name
    requires forall j :: 0 <= j < p ==> names[j] != name
    ensures FirstIndex(names, name) == p
  {
  }

  /** Appending a name does not move the first occurrence of any name already present. */
  lemma FirstIndexOfPrefix(names: seq<string>, extra: string, x: string)
    ensures x in names ==> FirstIndex(names + [extra], x) == FirstIndex(names, x)
    ensures x !in names && x == extra ==> FirstIndex(names + [extra], x) == |names|
  {
    var all := names + [extra];
    if x in names {
      var f := FirstIndex(names, x);
      FirstIndexUnique(all, x, f);
    } else if x == extra {
      FirstIndexUnique(all, x, |names|);
    }
  }

  /**
   * `travel_map`: filled with `insert` while reading the configuration, so
   * when two locations share a name the first one's hub time is kept.
   */
  function HubTimes(locs: seq<LocationConfig>): (m: map<string, u32>)
    ensures forall x :: x in m <==> x in Names(locs)
    ensures forall x :: x in m ==>
      FirstIndex(Names(locs), x) < |locs| && m[x] == locs[FirstIndex(Names(locs), x)].travelTimeToHub
  {
    if |locs| == 0 then map[]
    else
      var prefix, last := locs[..|locs| - 1], locs[|locs| - 1];
      assert locs == prefix + [last];
      var m := HubTimes(prefix);
      HubTimesInsert(prefix, last, m);
      if last.name in m then m else m[last.name := last.travelTimeToHub]
  }

  /** One `insert` into the hub-time map keeps it describing the first occurrence of every name. */
  lemma HubTimesInsert(prefix: seq<LocationConfig>, last: LocationConfig, m: map<string, u32>)
    requires forall x :: x in m <==> x in Names(prefix)
    requires forall x :: x in m ==>
      FirstIndex(Names(prefix), x) < |prefix| && m[x] == prefix[FirstIndex(Names(prefix), x)].travelTimeToHub
    ensures var m' := if last.name in m then m else m[last.name := last.travelTimeToHub];
      && (forall x :: x in m' <==> x in Names(prefix + [last]))
      && (forall x :: x in m' ==>
            FirstIndex(Names(prefix + [last]), x) < |prefix + [last]|
            && m'[x] == (prefix + [last])[FirstIndex(Names(prefix + [last]), x)].travelTimeToHub)
  {
    HubTimesStep(prefix, last);
  }

  /** How the names and first occurrences of `prefix + [last]` relate to those of `prefix`. */
  lemma HubTimesStep(prefix: seq<LocationConfig>, last: LocationConfig)
    ensures prefix + [last] != [] && (prefix + [last])[..|prefix|] == prefix
    ensures Names(prefix + [last]) == Names(prefix) + [last.name]
    ensures forall x :: x in Names(prefix + [last]) <==> x in Names(prefix) || x == last.name
    ensures forall x :: x in Names(prefix) ==> FirstIndex(Names(prefix + [last]), x) == FirstIndex(Names(prefix), x)
    ensures last.name !in Names(prefix) ==> FirstIndex(Names(prefix + [last]), last.name) == |prefix|
  {
    var all := prefix + [last];
    assert all[..|prefix|] == prefix;
    assert Names(all) == Names(prefix) + [last.name];
    forall x
      ensures x in Names(prefix) ==> FirstIndex(Names(all), x) == FirstIndex(Names(prefix), x)
      ensures x !in Names(prefix) && x == last.name ==> FirstIndex(Names(all), x) == |prefix|
    {
      FirstIndexOfPrefix(Names(prefix), last.name, x);
    }
  }

  /**
   * The inner loop of the travel-map construction: one `insert` per link,
   * each with the linked location's hub time.
   */
  method NeighbourTravelTimes(links: seq<string>, hub: map<string, u32>) returns (table: map<string, u32>)
    requires forall x :: x in links ==> x in hub
    ensures table.Keys == set t | 0 <= t < |links| :: links[t]
    ensures forall x :: x in table ==> table[x] == hub[x]
  {
    table := map[];
    var t := 0;
    while t < |links|
      invariant t <= |links|
      invariant table.Keys == set u | 0 <= u < t :: links[u]
      invariant forall x :: x in table ==> table[x] == hub[x]
    {
      var link := links[t];
      if link !in table {
        table := table[link := hub[link]];
      }
      t := t + 1;
    }
  }

  /**
   * `table` is what start-up gives location `i`: one entry per graph
   * neighbour, holding that neighbour's travel time to the hub.
   */
  ghost predicate IsTravelTable(table: map<string, u32>, g: Model, locs: seq<LocationConfig>, i: nat)
    requires WellFormed(g) && g.nodes == Names(locs) && i < |locs|
  {
    var row := g.connections[FirstIndex(g.nodes, locs[i].name)];
    && (forall x :: x in table <==> exists j :: 0 <= j < |locs| && row[j] && locs[j].name == x)
    && (forall x :: x in table ==>
          FirstIndex(g.nodes, x) < |locs| && table[x] == locs[FirstIndex(g.nodes, x)].travelTimeToHub)
  }

  /** The body of the outer loop for location `i`: fetch its links, then build its table. */
  method TravelTableOf(g: Model, locs: seq<LocationConfig>, hub: map<string, u32>, i: nat) returns (table: map<string, u32>)
    requires WellFormed(g) && g.nodes == Names(locs) && i < |locs|
    requires hub == HubTimes(locs)
    ensures IsTravelTable(table, g, locs, i)
  {
    assert g.nodes[i] == locs[i].name;
    var row := g.connections[FirstIndex(g.nodes, locs[i].name)];
    var links := FetchNodeLinks(g, locs[i].name).value;
    forall x | x in links
      ensures x in hub
    {
      var j :| 0 <= j < |g.nodes| && row[j] && g.nodes[j] == x;
      assert locs[j].name == x;
    }
    table := NeighbourTravelTimes(links, hub);
    forall x
      ensures x in table <==> exists j :: 0 <= j < |locs| && row[j] && locs[j].name == x
    {
      if x in links {
        var t :| 0 <= t < |links| && links[t] == x;
        assert x in table;
      }
      if exists j :: 0 <= j < |locs| && row[j] && locs[j].name == x {
        var j :| 0 <= j < |locs| && row[j] && locs[j].name == x;
        assert g.nodes[j] == x;
        assert x in links;
      }
    }
  }

  /**
   * The outer loop: every location gets the travel table of its graph
   * neighbours. Because the graph's nodes are the locations' own names, no
   * fetch aborts.
   */
  method BuildTravelTables(g: Model, locs: seq<LocationConfig>) returns (tables: seq<map<string, u32>>)
    requires WellFormed(g) && g.nodes == Names(locs)
    ensures |tables| == |locs|
    ensures forall i :: 0 <= i < |locs| ==> IsTravelTable(tables[i], g, locs, i)
  {
    var hub := HubTimes(locs);
    tables := [];
    var i := 0;
    while i < |locs|
      invariant i <= |locs| && |tables| == i
      invariant forall p :: 0 <= p < i ==> IsTravelTable(tables[p], g, locs, p)
    {
      var table := TravelTableOf(g, locs, hub, i);
      TablesAppend(g, locs, tables, table);
      tables := tables + [table];
      i := i + 1;
    }
  }

  lemma TablesAppend(g: Model, locs: seq<LocationConfig>, tables: seq<map<string, u32>>, table: map<string, u32>)
    requires WellFormed(g) && g.nodes == Names(locs) && |tables| < |locs|
    requires forall p :: 0 <= p < |tables| ==> IsTravelTable(tables[p], g, locs, p)
    requires IsTravelTable(table, g, locs, |tables|)
    ensures forall p :: 0 <= p < |tables| + 1 ==> IsTravelTable((tables + [table])[p], g, locs, p)
  {
    forall p | 0 <= p < |tables| + 1 ensures IsTravelTable((tables + [table])[p], g, locs, p) {
      if p < |tables| {
        assert (tables + [table])[p] == tables[p];
      } else {
        assert (tables + [table])[p] == table;
      }
    }
  }

  /**
   * Lines 248-267 of the start-up: a generator of degree `k` and threshold
   * `precisionBeta` over the location names, then one travel table per
   * location. The graph is the reference rewiring pass over the bare ring
   * lattice: a link survives exactly when it is a lattice link no rewiring
   * cleared. With a zero threshold and enough precision draws nothing is
   * rewired, and each table lists exactly the location's lattice neighbours.
   */
  method WireLocations(k: u32, precisionBeta: nat, locs: seq<LocationConfig>, precisionDraws: seq<nat>, nodeDraws: seq<nat>)
    returns (r: Result<(Model, seq<map<string, u32>>), GraphError>, ghost trace: seq<Rewiring>)
    requires |locs| < TWO_TO_THE_32
    requires forall j :: 0 <= j < |nodeDraws| ==> nodeDraws[j] < |locs|
    ensures r.Failure? ==> r.error == DrawsExhausted
    ensures r.Success? ==> var (g, tables) := r.value;
      && WellFormed(g) && g.nodes == Names(locs) && Symmetric(g.connections, |locs|)
      && |tables| == |locs|
      && forall i :: 0 <= i < |locs| ==> IsTravelTable(tables[i], g, locs, i)
    ensures var pass := RewireFrom(LatticeOf(Empty(|locs|), |locs|, k), |locs|, precisionBeta,
                                   precisionDraws, nodeDraws, 0, 0, 0);
      && (r.Success? <==> pass.Success?)
      && (r.Success? ==> r.value.0.connections == pass.value)
    ensures r.Success? ==> forall a, b {:trigger r.value.0.connections[a][b]} :: 0 <= a < |locs| && 0 <= b < |locs| ==>
      (r.value.0.connections[a][b] <==> LatticeEdge(|locs|, k, a, b) && !ClearedBy(trace, a, b))
    ensures r.Success? ==> forall j :: 0 <= j < |trace| ==>
      ValidRewiring(trace[j], LatticeOf(Empty(|locs|), |locs|, k), |locs|)
    ensures r.Success? && NoWrap(|locs|, k) && k - k / 2 < |locs| ==> NoSelfLoops(r.value.0.connections, |locs|)
    ensures precisionBeta == 0 && |locs| * |locs| <= |precisionDraws| ==>
      && r.Success?
      && forall i :: 0 <= i < |locs| ==>
           forall x :: x in r.value.1[i] <==>
             exists j :: 0 <= j < |locs| && locs[j].name == x
                         && LatticeEdge(|locs|, k, FirstIndex(Names(locs), locs[i].name), j)
  {
    var g := PopulateNodes(NewModel(k, precisionBeta), Names(locs));
    var mapped;
    mapped, trace := MapNodes(g, precisionDraws, nodeDraws);
    if mapped.Failure? {
      return Failure(mapped.error), trace;
    }
    if NoWrap(|locs|, k) && k - k / 2 < |locs| {
      MapNodesNoSelfLoops(g, mapped.value, trace);
    }
    var tables := BuildTravelTables(mapped.value, locs);
    r := Success((mapped.value, tables));
  }
}

=== FILE: unsigned.dfy ===
/**
 * Fixed-width unsigned integers as the C++ sources use them. Every
 * `unsigned int` sum in the simulation code wraps modulo 2^32; the helpers
 * here make that wrap explicit so that the rest of the model never relies on
 * Dafny's unbounded integers by accident.
 */
module Unsigned {

  const TWO_TO_THE_32: int := 0x1_0000_0000
  const TWO_TO_THE_64: int := 0x1_0000_0000_0000_0000

  /** C++ `unsigned int`. */
  type u32 = x: int | 0 <= x < TWO_TO_THE_32

  /** C++ `unsigned long` on the LP64 platforms the simulator targets. */
  type u64 = x: int | 0 <= x < TWO_TO_THE_64

  /** Reduces any integer to the `unsigned int` it denotes (two's-complement wrap). */
  function Wrap32(x: int): (r: u32)
    ensures 0 <= x < TWO_TO_THE_32 ==> r == x
    ensures TWO_TO_THE_32 <= x < 2 * TWO_TO_THE_32 ==> r == x - TWO_TO_THE_32
    ensures -TWO_TO_THE_32 <= x < 0 ==> r == x + TWO_TO_THE_32
  {
    x % TWO_TO_THE_32
  }

  /** `a + b` on `unsigned int`. */
  function Add32(a: u32, b: u32): (r: u32)
    ensures a + b < TWO_TO_THE_32 ==> r == a + b
    ensures a + b >= TWO_TO_THE_32 ==> r == a + b - TWO_TO_THE_32
  {
    Wrap32(a + b)
  }

  /** `a - b` on `unsigned int`. */
  function Sub32(a: u32, b: u32): (r: u32)
    ensures a >= b ==> r == a - b
    ensures a < b ==> r == a - b + TWO_TO_THE_32
  {
    Wrap32(a - b)
  }

  /** Wrapping before or after adding an `unsigned int` gives the same `unsigned int`. */
  lemma AddAfterWrap(x: int, b: u32)
    ensures Add32(Wrap32(x), b) == Wrap32(x + b)
  {
    var q := x / TWO_TO_THE_32;
    assert x == q * TWO_TO_THE_32 + Wrap32(x);
    assert x + b == q * TWO_TO_THE_32 + (Wrap32(x) + b);
    if Wrap32(x) + b >= TWO_TO_THE_32 {
      assert x + b == (q + 1) * TWO_TO_THE_32 + (Wrap32(x) + b - TWO_TO_THE_32);
    }
  }
}

=== FILE: watts_strogatz.dfy ===
/**
 * The Watts-Strogatz contact-graph generator of the epidemic model
 * (`WattsStrogatzModel`): an n-by-n boolean adjacency matrix over an ordered
 * list of location names, built as a ring lattice and then thinned by a
 * rewiring pass driven by a random stream.
 *
 * The random engine is not modelled; the values its two distributions hand
 * out are inputs, in the order the generator asks for them.
 */
module WattsStrogatz {
  import opened Wrappers
  import opened Unsigned
  import opened RingLattice

  /** `BETA_PRECISION`: the rewiring probability is compared as an integer out of this many. */
  const BETA_PRECISION: nat := 10000

  /** `connections_`: row `a`, column `b` says whether `a` links to `b`. */
  type Matrix = seq<seq<bool>>

  ghost predicate IsSquare(m: Matrix, n: nat) {
    |m| == n && forall a :: 0 <= a < n ==> |m[a]| == n
  }

  ghost predicate Symmetric(m: Matrix, n: nat)
    requires IsSquare(m, n)
  {
    forall a, b :: 0 <= a < n && 0 <= b < n ==> m[a][b] == m[b][a]
  }

  ghost predicate NoSelfLoops(m: Matrix, n: nat)
    requires IsSquare(m, n)
  {
    forall a :: 0 <= a < n ==> !m[a][a]
  }

  /** Every link of `small` is a link of `big`. */
  ghost predicate SubGraph(small: Matrix, big: Matrix, n: nat)
    requires IsSquare(small, n) && IsSquare(big, n)
  {
    forall a, b :: 0 <= a < n && 0 <= b < n && small[a][b] ==> big[a][b]
  }

  /**
   * The generator object. `precisionBeta` is the integer threshold
   * `(unsigned int)(beta * BETA_PRECISION)` the source derives from its
   * floating-point `beta`.
   */
  datatype Model = Model(k: u32, precisionBeta: nat, nodes: seq<string>, connections: Matrix)

  datatype GraphError =
    | InvalidFetch     // `fetchNodeLinks` on a name that is not a node: the run aborts
    | DrawsExhausted   // the finite draw sequence given to the model was too short

  /** The node count fits the `unsigned int` the source keeps it in, and the matrix is n by n. */
  ghost predicate WellFormed(g: Model) {
    |g.nodes| < TWO_TO_THE_32 && IsSquare(g.connections, |g.nodes|)
  }

  /** The constructor: degree and threshold recorded, no nodes yet. */
  function NewModel(k: u32, precisionBeta: nat): (g: Model)
    ensures WellFormed(g) && g.nodes == []
    ensures g.k == k && g.precisionBeta == precisionBeta
  {
    Model(k, precisionBeta, [], [])
  }

  /** An n-by-n matrix with every entry false. */
  function Empty(n: nat): (m: Matrix)
    ensures IsSquare(m, n)
    ensures forall a, b :: 0 <= a < n && 0 <= b < n ==> !m[a][b]
  {
    seq(n, _ => seq(n, _ => false))
  }

  /** `populateNodes`: keeps the node list as given and allocates an all-false matrix of its size. */
  function PopulateNodes(g: Model, nodes: seq<string>): (r: Model)
    requires |nodes| < TWO_TO_THE_32
    ensures WellFormed(r)
    ensures r.nodes == nodes && r.k == g.k && r.precisionBeta == g.precisionBeta
    ensures forall a, b :: 0 <= a < |nodes| && 0 <= b < |nodes| ==> !r.connections[a][b]
  {
    g.(nodes := nodes, connections := Empty(|nodes|))
  }

  /** One entry of the matrix overwritten. */
  function Set(m: Matrix, n: nat, a: nat, b: nat, v: bool): (r: Matrix)
    requires IsSquare(m, n) && a < n && b < n
    ensures IsSquare(r, n)
    ensures forall x, y :: 0 <= x < n && 0 <= y < n ==>
      r[x][y] == if x == a && y == b then v else m[x][y]
  {
    m[a := m[a][b := v]]
  }

  // ---------------------------------------------------------------------
  // Phase one: the ring lattice
  // ---------------------------------------------------------------------

  /** What the matrix holds once the rows before `rows` have written their lattice links. */
  ghost predicate LatticeSoFar(m: Matrix, n: nat, k: nat, rows: nat, a: nat, b: nat)
    requires IsSquare(m, n) && a < n && b < n
  {
    m[a][b] || (a < rows && Reaches(n, k, a, b)) || (b < rows && Reaches(n, k, b, a))
  }

  /** The first inner loop of the lattice: row `index` links to its `left` counter-clockwise neighbours. */
  method AddLeftLinks(r0: Matrix, n: nat, index: nat, left: nat) returns (r: Matrix)
    requires IsSquare(r0, n) && index < n
    ensures IsSquare(r, n)
    ensures forall a, b {:trigger r[a][b]} :: 0 <= a < n && 0 <= b < n ==>
      (r[a][b] <==> r0[a][b]
                    || (a == index && b in LeftTargets(n, index, left))
                    || (b == index && a in LeftTargets(n, index, left)))
    ensures Symmetric(r0, n) ==> Symmetric(r, n)
  {
    r := r0;
    var d := 1;
    while d <= left
      invariant 1 <= d <= left + 1
      invariant IsSquare(r, n)
      invariant forall a, b {:trigger r[a][b]} :: 0 <= a < n && 0 <= b < n ==>
        (r[a][b] <==> r0[a][b]
                      || (a == index && b in LeftTargets(n, index, d - 1))
                      || (b == index && a in LeftTargets(n, index, d - 1)))
      invariant Symmetric(r0, n) ==> Symmetric(r, n)
    {
      var leftIndex := LeftIndex(n, index, d);
      r := Set(r, n, index, leftIndex, true);
      r := Set(r, n, leftIndex, index, true);
      d := d + 1;
    }
  }

  /** The second inner loop of the lattice: row `index` links to its `right` clockwise neighbours. */
  method AddRightLinks(r0: Matrix, n: nat, index: nat, right: nat) returns (r: Matrix)
    requires IsSquare(r0, n) && index < n
    ensures IsSquare(r, n)
    ensures forall a, b {:trigger r[a][b]} :: 0 <= a < n && 0 <= b < n ==>
      (r[a][b] <==> r0[a][b]
                    || (a == index && b in RightTargets(n, index, right))
                    || (b == index && a in RightTargets(n, index, right)))
    ensures Symmetric(r0, n) ==> Symmetric(r, n)
  {
    r := r0;
    var d := 1;
    while d <= right
      invariant 1 <= d <= right + 1
      invariant IsSquare(r, n)
      invariant forall a, b {:trigger r[a][b]} :: 0 <= a < n && 0 <= b < n ==>
        (r[a][b] <==> r0[a][b]
                      || (a == index && b in RightTargets(n, index, d - 1))
                      || (b == index && a in RightTargets(n, index, d - 1)))
      invariant Symmetric(r0, n) ==> Symmetric(r, n)
    {
      var rightIndex := RightIndex(n, index, d);
      r := Set(r, n, index, rightIndex, true);
      r := Set(r, n, rightIndex, index, true);
      d := d + 1;
    }
  }

  /**
   * The lattice loop of `mapNodes`. It only ever sets entries, each paired
   * with its mirror, on top of whatever the matrix already holds.
   */
  method AddLattice(m: Matrix, n: nat, k: u32) returns (r: Matrix)
    requires n < TWO_TO_THE_32 && IsSquare(m, n)
    ensures IsSquare(r, n)
    ensures forall a, b {:trigger r[a][b]} :: 0 <= a < n && 0 <= b < n ==> (r[a][b] <==> m[a][b] || LatticeEdge(n, k, a, b))
    ensures Symmetric(m, n) ==> Symmetric(r, n)
  {
    r := m;
    var index := 0;
    while index < n
      invariant index <= n
      invariant IsSquare(r, n)
      invariant forall a, b {:trigger r[a][b]} :: 0 <= a < n && 0 <= b < n ==> (r[a][b] <==> LatticeSoFar(m, n, k, index, a, b))
      invariant Symmetric(m, n) ==> Symmetric(r, n)
    {
      r := AddRow(m, n, k, index, r);
      index := index + 1;
    }
    LatticeSoFarAll(m, n, k, r);
  }

  /** One pass of the outer lattice loop: row `index` adds its left and then its right links. */
  method AddRow(m: Matrix, n: nat, k: nat, index: nat, r0: Matrix) returns (r: Matrix)
    requires IsSquare(m, n) && IsSquare(r0, n) && index < n
    requires forall a, b {:trigger r0[a][b]} :: 0 <= a < n && 0 <= b < n ==>
      (r0[a][b] <==> LatticeSoFar(m, n, k, index, a, b))
    ensures IsSquare(r, n)
    ensures forall a, b {:trigger r[a][b]} :: 0 <= a < n && 0 <= b < n ==>
      (r[a][b] <==> LatticeSoFar(m, n, k, index + 1, a, b))
    ensures Symmetric(r0, n) ==> Symmetric(r, n)
  {
    var middle := AddLeftLinks(r0, n, index, k / 2);
    r := AddRightLinks(middle, n, index, k - k / 2);
    LatticeRowStep(m, n, k, index, r0, middle, r);
  }

  /** Row `rows` adds, at entry (a, b), exactly the links that row reaches. */
  lemma LatticeSoFarCell(m: Matrix, n: nat, k: nat, rows: nat, a: nat, b: nat)
    requires IsSquare(m, n) && rows < n && a < n && b < n
    ensures LatticeSoFar(m, n, k, rows + 1, a, b) <==>
      LatticeSoFar(m, n, k, rows, a, b) || (a == rows && Reaches(n, k, rows, b)) || (b == rows && Reaches(n, k, rows, a))
  {
  }

  /** The two inner loops of row `index` extend the links made so far by that row's links. */
  lemma LatticeRowStep(m: Matrix, n: nat, k: nat, index: nat, before: Matrix, middle: Matrix, r: Matrix)
    requires IsSquare(m, n) && IsSquare(before, n) && IsSquare(middle, n) && IsSquare(r, n) && index < n
    requires forall a, b {:trigger before[a][b]} :: 0 <= a < n && 0 <= b < n ==>
      (before[a][b] <==> LatticeSoFar(m, n, k, index, a, b))
    requires forall a, b {:trigger middle[a][b]} :: 0 <= a < n && 0 <= b < n ==>
      (middle[a][b] <==> before[a][b]
                         || (a == index && b in LeftTargets(n, index, k / 2))
                         || (b == index && a in LeftTargets(n, index, k / 2)))
    requires forall a, b {:trigger r[a][b]} :: 0 <= a < n && 0 <= b < n ==>
      (r[a][b] <==> middle[a][b]
                    || (a == index && b in RightTargets(n, index, k - k / 2))
                    || (b == index && a in RightTargets(n, index, k - k / 2)))
    ensures forall a, b {:trigger r[a][b]} :: 0 <= a < n && 0 <= b < n ==>
      (r[a][b] <==> LatticeSoFar(m, n, k, index + 1, a, b))
  {
    forall a, b | 0 <= a < n && 0 <= b < n
      ensures r[a][b] <==> LatticeSoFar(m, n, k, index + 1, a, b)
    {
      var left, right := LeftTargets(n, index, k / 2), RightTargets(n, index, k - k / 2);
      assert before[a][b] <==> LatticeSoFar(m, n, k, index, a, b);
      assert middle[a][b] <==> (before[a][b] || (a == index && b in left) || (b == index && a in left));
      assert r[a][b] <==> (middle[a][b] || (a == index && b in right) || (b == index && a in right));
      assert Reaches(n, k, index, b) <==> b in left || b in right;
      assert Reaches(n, k, index, a) <==> a in left || a in right;
      LatticeSoFarCell(m, n, k, index, a, b);
    }
  }

  /** Once every row is done, the links made are the original ones plus the lattice's. */
  lemma LatticeSoFarAll(m: Matrix, n: nat, k: nat, r: Matrix)
    requires IsSquare(m, n) && IsSquare(r, n)
    requires forall a, b {:trigger r[a][b]} :: 0 <= a < n && 0 <= b < n ==>
      (r[a][b] <==> LatticeSoFar(m, n, k, n, a, b))
    ensures forall a, b {:trigger r[a][b]} :: 0 <= a < n && 0 <= b < n ==>
      (r[a][b] <==> m[a][b] || LatticeEdge(n, k, a, b))
  {
    forall a, b | 0 <= a < n && 0 <= b < n
      ensures r[a][b] <==> m[a][b] || LatticeEdge(n, k, a, b)
    {
      assert r[a][b] <==> LatticeSoFar(m, n, k, n, a, b);
    }
  }

  // ---------------------------------------------------------------------
  // Phase two: rewiring
  // ---------------------------------------------------------------------

  /** One rewiring of the pass: the link `index`-`neighbour` is dropped and `replacement` chosen. */
  datatype Rewiring = Rewiring(index: nat, neighbour: nat, replacement: nat)

  /**
   * Entry (a, b) is one of the four the rewiring writes `false` to: the old
   * link and, because the source clears rather than sets it, the link to the
   * replacement too.
   */
  ghost predicate Clears(t: Rewiring, a: nat, b: nat) {
    || (a == t.index && b == t.neighbour)
    || (a == t.neighbour && b == t.index)
    || (a == t.index && b == t.replacement)
    || (a == t.replacement && b == t.index)
  }

  /** Some rewiring of `trace` cleared entry (a, b). */
  ghost predicate ClearedBy(trace: seq<Rewiring>, a: nat, b: nat) {
    |trace| > 0 && (ClearedBy(trace[..|trace| - 1], a, b) || Clears(trace[|trace| - 1], a, b))
  }

  /** A rewiring the pass can perform on the lattice `m`: an existing link, a replacement distinct from both ends. */
  ghost predicate ValidRewiring(t: Rewiring, m: Matrix, n: nat)
    requires IsSquare(m, n)
  {
    && t.index < n && t.neighbour < n && t.replacement < n
    && t.replacement != t.index && t.replacement != t.neighbour
    && m[t.index][t.neighbour]
  }

  /** The matrix after the rewirings of `trace` have been applied to `m`, and nothing else. */
  ghost predicate RewiredBy(cur: Matrix, m: Matrix, n: nat, trace: seq<Rewiring>)
    requires IsSquare(m, n)
  {
    && IsSquare(cur, n)
    && (forall a, b {:trigger cur[a][b]} :: 0 <= a < n && 0 <= b < n ==>
          (cur[a][b] <==> m[a][b] && !ClearedBy(trace, a, b)))
    && (forall j :: 0 <= j < |trace| ==> ValidRewiring(trace[j], m, n))
  }

  lemma ClearedByAppend(trace: seq<Rewiring>, t: Rewiring, a: nat, b: nat)
    ensures ClearedBy(trace + [t], a, b) <==> ClearedBy(trace, a, b) || Clears(t, a, b)
  {
    assert (trace + [t])[..|trace|] == trace;
  }

  /** Clearing is mirrored: every rewiring clears (a, b) exactly when it clears (b, a). */
  lemma {:induction false} ClearedBySymmetric(trace: seq<Rewiring>, a: nat, b: nat)
    ensures ClearedBy(trace, a, b) <==> ClearedBy(trace, b, a)
    decreases |trace|
  {
    if |trace| > 0 {
      ClearedBySymmetric(trace[..|trace| - 1], a, b);
    }
  }

  /**
   * The retry loop of the rewiring pass: node draws are taken in order until
   * one differs from both ends of the link. Returns that node and the
   * position after the last draw used, or `None` when the draws run out
   * first.
   */
  function DrawReplacement(nodeDraws: seq<nat>, from: nat, n: nat, index: nat, neighbour: nat): (r: Option<(nat, nat)>)
    requires from <= |nodeDraws|
    requires forall j :: 0 <= j < |nodeDraws| ==> nodeDraws[j] < n
    decreases |nodeDraws| - from
    ensures r.Some? ==>
      && from < r.value.1 <= |nodeDraws|
      && r.value.0 == nodeDraws[r.value.1 - 1]
      && r.value.0 < n && r.value.0 != index && r.value.0 != neighbour
      && (forall j :: from <= j < r.value.1 - 1 ==> nodeDraws[j] == index || nodeDraws[j] == neighbour)
    ensures r.None? ==> forall j :: from <= j < |nodeDraws| ==> nodeDraws[j] == index || nodeDraws[j] == neighbour
    ensures r.Some? && index < n && neighbour < n ==> if index == neighbour then n >= 2 else n >= 3
  {
    if from == |nodeDraws| then None
    else if nodeDraws[from] != index && nodeDraws[from] != neighbour then Some((nodeDraws[from], from + 1))
    else DrawReplacement(nodeDraws, from + 1, n, index, neighbour)
  }

  /** The matrix after one rewiring: the four entries are written `false`, in the order the source writes them. */
  function Rewired(cur: Matrix, n: nat, t: Rewiring): (r: Matrix)
    requires IsSquare(cur, n) && t.index < n && t.neighbour < n && t.replacement < n
    ensures IsSquare(r, n)
    ensures forall a, b {:trigger r[a][b]} :: 0 <= a < n && 0 <= b < n ==>
      r[a][b] == (cur[a][b] && !Clears(t, a, b))
  {
    var r1 := Set(cur, n, t.index, t.neighbour, false);
    var r2 := Set(r1, n, t.neighbour, t.index, false);
    var r3 := Set(r2, n, t.index, t.replacement, false);
    Set(r3, n, t.replacement, t.index, false)
  }

  /**
   * One row of the rewiring pass as a reference definition: the cells of
   * row `index` from column `col` on, with the precision draws from `pp`
   * and the node draws from `np` still unused. A cell whose entry is unset
   * is skipped; a set one takes one precision draw, and a draw at or above
   * the threshold skips it; otherwise the first node draw distinct from
   * both ends is the replacement and the four entries are cleared. Running
   * out of either kind of draw where one is needed fails. The result is the
   * matrix and the two draw positions at the end of the row.
   */
  function RowFrom(
    cur: Matrix, n: nat, precisionBeta: nat, precisionDraws: seq<nat>, nodeDraws: seq<nat>,
    index: nat, col: nat, pp: nat, np: nat): (r: Result<(Matrix, nat, nat), GraphError>)
    requires IsSquare(cur, n) && index < n && col <= n
    requires pp <= |precisionDraws| && np <= |nodeDraws|
    requires forall j :: 0 <= j < |nodeDraws| ==> nodeDraws[j] < n
    decreases n - col
    ensures r.Failure? ==> r.error == DrawsExhausted
    ensures r.Success? ==> IsSquare(r.value.0, n)
    ensures r.Success? ==> pp <= r.value.1 <= |precisionDraws| && r.value.1 <= pp + (n - col)
    ensures r.Success? ==> np <= r.value.2 <= |nodeDraws|
  {
    if col == n then Success((cur, pp, np))
    else if !cur[index][col] then RowFrom(cur, n, precisionBeta, precisionDraws, nodeDraws, index, col + 1, pp, np)
    else if pp == |precisionDraws| then Failure(DrawsExhausted)
    else if precisionDraws[pp] >= precisionBeta then
      RowFrom(cur, n, precisionBeta, precisionDraws, nodeDraws, index, col + 1, pp + 1, np)
    else match DrawReplacement(nodeDraws, np, n, index, col)
      case None => Failure(DrawsExhausted)
      case Some(pick) =>
        RowFrom(Rewired(cur, n, Rewiring(index, col, pick.0)), n, precisionBeta, precisionDraws, nodeDraws,
                index, col + 1, pp + 1, pick.1)
  }

  /**
   * The whole rewiring pass as a reference definition: the rows from
   * `index` on, each as `RowFrom` describes it, each starting with the
   * matrix and draw positions the previous one ended with.
   */
  function RewireFrom(
    cur: Matrix, n: nat, precisionBeta: nat, precisionDraws: seq<nat>, nodeDraws: seq<nat>,
    index: nat, pp: nat, np: nat): (r: Result<Matrix, GraphError>)
    requires IsSquare(cur, n) && index <= n
    requires pp <= |precisionDraws| && np <= |nodeDraws|
    requires forall j :: 0 <= j < |nodeDraws| ==> nodeDraws[j] < n
    decreases n - index
    ensures r.Failure? ==> r.error == DrawsExhausted
    ensures r.Success? ==> IsSquare(r.value, n)
  {
    if index == n then Success(cur)
    else match RowFrom(cur, n, precisionBeta, precisionDraws, nodeDraws, index, 0, pp, np)
      case Failure(e) => Failure(e)
      case Success(end) => RewireFrom(end.0, n, precisionBeta, precisionDraws, nodeDraws, index + 1, end.1, end.2)
  }

  /** With no precision draw below the threshold, the rest of a row changes nothing and uses no node draw. */
  lemma {:induction false} RowFromIdle(
    cur: Matrix, n: nat, precisionBeta: nat, precisionDraws: seq<nat>, nodeDraws: seq<nat>,
    index: nat, col: nat, pp: nat, np: nat)
    requires IsSquare(cur, n) && index < n && col <= n
    requires pp <= |precisionDraws| && np <= |nodeDraws|
    requires forall j :: 0 <= j < |nodeDraws| ==> nodeDraws[j] < n
    requires forall j :: pp <= j < |precisionDraws| ==> precisionDraws[j] >= precisionBeta
    requires n - col <= |precisionDraws| - pp
    ensures var r := RowFrom(cur, n, precisionBeta, precisionDraws, nodeDraws, index, col, pp, np);
      r.Success? && r.value.0 == cur && r.value.2 == np
    decreases n - col
  {
    if col < n {
      if !cur[index][col] {
        RowFromIdle(cur, n, precisionBeta, precisionDraws, nodeDraws, index, col + 1, pp, np);
      } else {
        RowFromIdle(cur, n, precisionBeta, precisionDraws, nodeDraws, index, col + 1, pp + 1, np);
      }
    }
  }

  /**
   * With no precision draw below the threshold and a draw for every cell
   * still to visit, the rest of the pass changes nothing.
   */
  lemma {:induction false} RewireFromIdle(
    cur: Matrix, n: nat, precisionBeta: nat, precisionDraws: seq<nat>, nodeDraws: seq<nat>,
    index: nat, pp: nat, np: nat)
    requires IsSquare(cur, n) && index <= n
    requires pp <= |precisionDraws| && np <= |nodeDraws|
    requires forall j :: 0 <= j < |nodeDraws| ==> nodeDraws[j] < n
    requires forall j :: pp <= j < |precisionDraws| ==> precisionDraws[j] >= precisionBeta
    requires RowCells(n, n - index) <= |precisionDraws| - pp
    ensures RewireFrom(cur, n, precisionBeta, precisionDraws, nodeDraws, index, pp, np) == Success(cur)
    decreases n - index
  {
    if index < n {
      RowFromIdle(cur, n, precisionBeta, precisionDraws, nodeDraws, index, 0, pp, np);
      var end := RowFrom(cur, n, precisionBeta, precisionDraws, nodeDraws, index, 0, pp, np).value;
      RewireFromIdle(cur, n, precisionBeta, precisionDraws, nodeDraws, index + 1, end.1, np);
    }
  }

  /** The number of cells in `rows` rows of width `n`. */
  ghost function RowCells(n: nat, rows: nat): nat {
    if rows == 0 then 0 else n + RowCells(n, rows - 1)
  }

  lemma {:induction false} RowCellsProduct(n: nat, rows: nat)
    ensures RowCells(n, rows) == rows * n
  {
    if rows > 0 {
      RowCellsProduct(n, rows - 1);
      assert rows * n == (rows - 1) * n + n;
    }
  }

  /** Every cell before (`index`, `col`) in row-major order holds `false`. */
  ghost predicate ClearedBefore(cur: Matrix, n: nat, index: nat, col: nat)
    requires IsSquare(cur, n)
  {
    forall a, b {:trigger cur[a][b]} :: 0 <= a < n && 0 <= b < n && (a < index || (a == index && b < col)) ==> !cur[a][b]
  }

  /** With every precision draw below the threshold, each link of the row visited while set is cleared. */
  lemma {:induction false} RowFromClears(
    cur: Matrix, n: nat, precisionBeta: nat, precisionDraws: seq<nat>, nodeDraws: seq<nat>,
    index: nat, col: nat, pp: nat, np: nat)
    requires IsSquare(cur, n) && index < n && col <= n
    requires pp <= |precisionDraws| && np <= |nodeDraws|
    requires forall j :: 0 <= j < |nodeDraws| ==> nodeDraws[j] < n
    requires forall j :: pp <= j < |precisionDraws| ==> precisionDraws[j] < precisionBeta
    requires ClearedBefore(cur, n, index, col)
    ensures var r := RowFrom(cur, n, precisionBeta, precisionDraws, nodeDraws, index, col, pp, np);
      r.Success? ==> ClearedBefore(r.value.0, n, index + 1, 0)
    decreases n - col
  {
    if col == n {
      assert ClearedBefore(cur, n, index + 1, 0);
    } else if !cur[index][col] {
      RowFromClears(cur, n, precisionBeta, precisionDraws, nodeDraws, index, col + 1, pp, np);
    } else if pp < |precisionDraws| {
      var pick := DrawReplacement(nodeDraws, np, n, index, col);
      if pick.Some? {
        var next := Rewired(cur, n, Rewiring(index, col, pick.value.0));
        RewiredClearsVisited(cur, n, Rewiring(index, col, pick.value.0));
        RowFromClears(next, n, precisionBeta, precisionDraws, nodeDraws, index, col + 1, pp + 1, pick.value.1);
        assert RowFrom(cur, n, precisionBeta, precisionDraws, nodeDraws, index, col, pp, np)
            == RowFrom(next, n, precisionBeta, precisionDraws, nodeDraws, index, col + 1, pp + 1, pick.value.1);
      } else {
        assert RowFrom(cur, n, precisionBeta, precisionDraws, nodeDraws, index, col, pp, np).Failure?;
      }
    }
  }

  /**
   * With every precision draw below the threshold, each link the pass
   * visits is rewired, so a pass that completes leaves no link at all.
   */
  lemma {:induction false} RewireFromClears(
    cur: Matrix, n: nat, precisionBeta: nat, precisionDraws: seq<nat>, nodeDraws: seq<nat>,
    index: nat, pp: nat, np: nat)
    requires IsSquare(cur, n) && index <= n
    requires pp <= |precisionDraws| && np <= |nodeDraws|
    requires forall j :: 0 <= j < |nodeDraws| ==> nodeDraws[j] < n
    requires forall j :: pp <= j < |precisionDraws| ==> precisionDraws[j] < precisionBeta
    requires ClearedBefore(cur, n, index, 0)
    ensures var r := RewireFrom(cur, n, precisionBeta, precisionDraws, nodeDraws, index, pp, np);
      r.Success? ==> forall a, b {:trigger r.value[a][b]} :: 0 <= a < n && 0 <= b < n ==> !r.value[a][b]
    decreases n - index
  {
    if index == n {
      var r := RewireFrom(cur, n, precisionBeta, precisionDraws, nodeDraws, index, pp, np);
      assert r == Success(cur);
      forall a, b | 0 <= a < n && 0 <= b < n
        ensures !r.value[a][b]
      {
        assert !cur[a][b];
      }
    } else {
      var row := RowFrom(cur, n, precisionBeta, precisionDraws, nodeDraws, index, 0, pp, np);
      RowFromClears(cur, n, precisionBeta, precisionDraws, nodeDraws, index, 0, pp, np);
      if row.Success? {
        var end := row.value;
        RewireFromClears(end.0, n, precisionBeta, precisionDraws, nodeDraws, index + 1, end.1, end.2);
      }
    }
  }

  /** A rewiring at cell (index, neighbour) keeps the cells before it cleared, and clears that cell too. */
  lemma RewiredClearsVisited(cur: Matrix, n: nat, t: Rewiring)
    requires IsSquare(cur, n) && t.index < n && t.neighbour < n && t.replacement < n
    requires ClearedBefore(cur, n, t.index, t.neighbour)
    ensures ClearedBefore(Rewired(cur, n, t), n, t.index, t.neighbour + 1)
  {
    var next := Rewired(cur, n, t);
    forall a, b | 0 <= a < n && 0 <= b < n && (a < t.index || (a == t.index && b < t.neighbour + 1))
      ensures !next[a][b]
    {
      assert next[a][b] == (cur[a][b] && !Clears(t, a, b));
    }
  }

  /** Applies one rewiring to the matrix the pass is working on. */
  method ApplyRewiring(cur: Matrix, n: nat, t: Rewiring, ghost m: Matrix, ghost trace: seq<Rewiring>) returns (r: Matrix)
    requires IsSquare(m, n) && RewiredBy(cur, m, n, trace) && ValidRewiring(t, m, n)
    ensures r == Rewired(cur, n, t)
    ensures RewiredBy(r, m, n, trace + [t])
  {
    r := Rewired(cur, n, t);
    forall a, b | 0 <= a < n && 0 <= b < n
      ensures r[a][b] <==> m[a][b] && !ClearedBy(trace + [t], a, b)
    {
      ClearedByAppend(trace, t, a, b);
      assert r[a][b] == (cur[a][b] && !Clears(t, a, b));
    }
    forall j | 0 <= j < |trace + [t]|
      ensures ValidRewiring((trace + [t])[j], m, n)
    {
      if j < |trace| {
        assert (trace + [t])[j] == trace[j];
      }
    }
  }

  /**
   * One row of the rewiring pass: for every `node_index` in order whose entry
   * is still set, one precision draw; below the threshold, a replacement is
   * drawn and the entries are cleared.
   */
  method RewireRow(
    m: Matrix, n: nat, index: nat, precisionBeta: nat,
    precisionDraws: seq<nat>, nodeDraws: seq<nat>,
    cur0: Matrix, pp0: nat, np0: nat, ghost trace0: seq<Rewiring>)
    returns (r: Result<Matrix, GraphError>, pp: nat, np: nat, ghost trace: seq<Rewiring>)
    requires IsSquare(m, n) && index < n
    requires forall j :: 0 <= j < |nodeDraws| ==> nodeDraws[j] < n
    requires pp0 <= |precisionDraws| && np0 <= |nodeDraws|
    requires RewiredBy(cur0, m, n, trace0)
    requires precisionBeta == 0 ==> cur0 == m && trace0 == []
    ensures r.Failure? ==> r.error == DrawsExhausted
    ensures r.Success? ==> RewiredBy(r.value, m, n, trace) && pp <= |precisionDraws| && np <= |nodeDraws|
    ensures r.Success? ==> pp <= pp0 + n
    ensures precisionBeta == 0 ==> trace == [] && (r.Success? ==> r.value == m)
    ensures precisionBeta == 0 && pp0 + n <= |precisionDraws| ==> r.Success?
    ensures var row := RowFrom(cur0, n, precisionBeta, precisionDraws, nodeDraws, index, 0, pp0, np0);
      && (r.Failure? <==> row.Failure?)
      && (r.Success? ==> row.value == (r.value, pp, np))
  {
    var cur := cur0;
    pp, np, trace := pp0, np0, trace0;
    var nodeIndex := 0;
    while nodeIndex < n
      invariant nodeIndex <= n
      invariant pp <= |precisionDraws| && np <= |nodeDraws|
      invariant pp <= pp0 + nodeIndex
      invariant RewiredBy(cur, m, n, trace)
      invariant precisionBeta == 0 ==> cur == m && trace == []
      invariant RowFrom(cur, n, precisionBeta, precisionDraws, nodeDraws, index, nodeIndex, pp, np)
        == RowFrom(cur0, n, precisionBeta, precisionDraws, nodeDraws, index, 0, pp0, np0)
    {
      if cur[index][nodeIndex] {
        if pp == |precisionDraws| {
          return Failure(DrawsExhausted), pp, np, trace;
        }
        var randNum := precisionDraws[pp];
        pp := pp + 1;
        if randNum < precisionBeta {
          var pick := DrawReplacement(nodeDraws, np, n, index, nodeIndex);
          if pick.None? {
            return Failure(DrawsExhausted), pp, np, trace;
          }
          var t := Rewiring(index, nodeIndex, pick.value.0);
          cur := ApplyRewiring(cur, n, t, m, trace);
          trace := trace + [t];
          np := pick.value.1;
        }
      }
      nodeIndex := nodeIndex + 1;
    }
    r := Success(cur);
  }

  /**
   * The rewiring loop of `mapNodes`. It only ever writes `false`, so what
   * remains is the input minus the entries the rewirings cleared; each
   * rewiring drops an existing link and picks a replacement distinct from
   * both of its ends (which it then also clears, as the source does).
   */
  method Rewire(m: Matrix, n: nat, precisionBeta: nat, precisionDraws: seq<nat>, nodeDraws: seq<nat>)
    returns (r: Result<Matrix, GraphError>, ghost trace: seq<Rewiring>)
    requires IsSquare(m, n)
    requires forall j :: 0 <= j < |nodeDraws| ==> nodeDraws[j] < n
    ensures r.Failure? ==> r.error == DrawsExhausted
    ensures r.Success? ==> IsSquare(r.value, n)
    ensures r.Success? ==> forall a, b {:trigger r.value[a][b]} :: 0 <= a < n && 0 <= b < n ==>
      (r.value[a][b] <==> m[a][b] && !ClearedBy(trace, a, b))
    ensures r.Success? ==> forall j :: 0 <= j < |trace| ==> ValidRewiring(trace[j], m, n)
    ensures r.Success? ==> SubGraph(r.value, m, n)
    ensures r.Success? && Symmetric(m, n) ==> Symmetric(r.value, n)
    ensures precisionBeta == 0 ==> trace == [] && (r.Success? ==> r.value == m)
    ensures precisionBeta == 0 && n * n <= |precisionDraws| ==> r == Success(m)
    ensures r == RewireFrom(m, n, precisionBeta, precisionDraws, nodeDraws, 0, 0, 0)
    ensures (forall j :: 0 <= j < |precisionDraws| ==> precisionDraws[j] >= precisionBeta) && n * n <= |precisionDraws| ==>
      r == Success(m)
    ensures (forall j :: 0 <= j < |precisionDraws| ==> precisionDraws[j] < precisionBeta) && r.Success? ==>
      forall a, b {:trigger r.value[a][b]} :: 0 <= a < n && 0 <= b < n ==> !r.value[a][b]
  {
    RewirePassThresholds(m, n, precisionBeta, precisionDraws, nodeDraws);
    var cur := m;
    var pp: nat, np: nat := 0, 0;
    trace := [];
    var index := 0;
    while index < n
      invariant index <= n
      invariant pp <= |precisionDraws| && np <= |nodeDraws|
      invariant RewiredBy(cur, m, n, trace)
      invariant precisionBeta == 0 ==> cur == m && trace == []
      invariant RewireFrom(cur, n, precisionBeta, precisionDraws, nodeDraws, index, pp, np)
        == RewireFrom(m, n, precisionBeta, precisionDraws, nodeDraws, 0, 0, 0)
    {
      var row;
      row, pp, np, trace := RewireRow(m, n, index, precisionBeta, precisionDraws, nodeDraws, cur, pp, np, trace);
      if row.Failure? {
        return row, trace;
      }
      cur := row.value;
      index := index + 1;
    }
    if Symmetric(m, n) {
      RewiredBySymmetric(cur, m, n, trace);
    }
    r := Success(cur);
  }

  /** The two threshold lemmas, for the whole pass. */
  lemma RewirePassThresholds(m: Matrix, n: nat, precisionBeta: nat, precisionDraws: seq<nat>, nodeDraws: seq<nat>)
    requires IsSquare(m, n)
    requires forall j :: 0 <= j < |nodeDraws| ==> nodeDraws[j] < n
    ensures var r := RewireFrom(m, n, precisionBeta, precisionDraws, nodeDraws, 0, 0, 0);
      && ((forall j :: 0 <= j < |precisionDraws| ==> precisionDraws[j] >= precisionBeta) && n * n <= |precisionDraws| ==>
            r == Success(m))
      && ((forall j :: 0 <= j < |precisionDraws| ==> precisionDraws[j] < precisionBeta) && r.Success? ==>
            forall a, b {:trigger r.value[a][b]} :: 0 <= a < n && 0 <= b < n ==> !r.value[a][b])
  {
    if (forall j :: 0 <= j < |precisionDraws| ==> precisionDraws[j] >= precisionBeta) && n * n <= |precisionDraws| {
      RowCellsProduct(n, n);
      RewireFromIdle(m, n, precisionBeta, precisionDraws, nodeDraws, 0, 0, 0);
    }
    if forall j :: 0 <= j < |precisionDraws| ==> precisionDraws[j] < precisionBeta {
      RewireFromClears(m, n, precisionBeta, precisionDraws, nodeDraws, 0, 0, 0);
    }
  }

  /** Rewiring a symmetric matrix leaves it symmetric. */
  lemma RewiredBySymmetric(cur: Matrix, m: Matrix, n: nat, trace: seq<Rewiring>)
    requires IsSquare(m, n) && RewiredBy(cur, m, n, trace) && Symmetric(m, n)
    ensures Symmetric(cur, n)
  {
    forall a, b | 0 <= a < n && 0 <= b < n
      ensures cur[a][b] == cur[b][a]
    {
      ClearedBySymmetric(trace, a, b);
    }
  }

  // ---------------------------------------------------------------------
  // mapNodes and fetchNodeLinks
  // ---------------------------------------------------------------------

  /** The matrix `m` with the ring lattice of degree `k` added on top. */
  ghost function LatticeOf(m: Matrix, n: nat, k: nat): (r: Matrix)
    requires IsSquare(m, n)
    ensures IsSquare(r, n)
    ensures forall a, b {:trigger r[a][b]} :: 0 <= a < n && 0 <= b < n ==> (r[a][b] <==> m[a][b] || LatticeEdge(n, k, a, b))
  {
    seq(n, a requires 0 <= a < n => seq(n, b requires 0 <= b < n => m[a][b] || LatticeEdge(n, k, a, b)))
  }

  /** Two n-by-n matrices with the same entries are equal. */
  lemma MatrixEquality(x: Matrix, y: Matrix, n: nat)
    requires IsSquare(x, n) && IsSquare(y, n)
    requires forall a, b {:trigger x[a][b]} :: 0 <= a < n && 0 <= b < n ==> x[a][b] == y[a][b]
    ensures x == y
  {
    forall a | 0 <= a < n
      ensures x[a] == y[a]
    {
      assert forall b :: 0 <= b < n ==> x[a][b] == y[a][b];
    }
  }

  /**
   * `mapNodes`: the lattice phase then the rewiring phase. The result is the
   * reference rewiring pass run over the old matrix with the lattice added:
   * every link left is one the matrix held before or one of the lattice,
   * minus those the rewirings cleared, and each rewiring dropped a link of
   * that lattice. Both halves keep the matrix symmetric.
   */
  method MapNodes(g: Model, precisionDraws: seq<nat>, nodeDraws: seq<nat>)
    returns (r: Result<Model, GraphError>, ghost trace: seq<Rewiring>)
    requires WellFormed(g)
    requires forall j :: 0 <= j < |nodeDraws| ==> nodeDraws[j] < |g.nodes|
    ensures r.Failure? ==> r.error == DrawsExhausted
    ensures r.Success? ==> WellFormed(r.value)
    ensures r.Success? ==> r.value.nodes == g.nodes && r.value.k == g.k && r.value.precisionBeta == g.precisionBeta
    ensures var pass := RewireFrom(LatticeOf(g.connections, |g.nodes|, g.k), |g.nodes|, g.precisionBeta,
                                   precisionDraws, nodeDraws, 0, 0, 0);
      && (r.Success? <==> pass.Success?)
      && (r.Success? ==> r.value.connections == pass.value)
    ensures r.Success? ==> forall a, b {:trigger r.value.connections[a][b]} :: 0 <= a < |g.nodes| && 0 <= b < |g.nodes| ==>
      (r.value.connections[a][b] <==> (g.connections[a][b] || LatticeEdge(|g.nodes|, g.k, a, b)) && !ClearedBy(trace, a, b))
    ensures r.Success? ==> forall j :: 0 <= j < |trace| ==>
      ValidRewiring(trace[j], LatticeOf(g.connections, |g.nodes|, g.k), |g.nodes|)
    ensures r.Success? && Symmetric(g.connections, |g.nodes|) ==> Symmetric(r.value.connections, |g.nodes|)
    ensures g.precisionBeta == 0 && |g.nodes| * |g.nodes| <= |precisionDraws| ==>
      && r.Success?
      && forall a, b {:trigger r.value.connections[a][b]} :: 0 <= a < |g.nodes| && 0 <= b < |g.nodes| ==>
           (r.value.connections[a][b] <==> g.connections[a][b] || LatticeEdge(|g.nodes|, g.k, a, b))
  {
    var n := |g.nodes|;
    var lattice := AddLattice(g.connections, n, g.k);
    MatrixEquality(lattice, LatticeOf(g.connections, n, g.k), n);
    var rewired;
    rewired, trace := Rewire(lattice, n, g.precisionBeta, precisionDraws, nodeDraws);
    if rewired.Failure? {
      return Failure(rewired.error), trace;
    }
    r := Success(g.(connections := rewired.value));
  }

  /**
   * On a fresh model, the generated graph has no self-loops as long as the
   * ring is wide enough that no lattice offset comes back to its start.
   */
  lemma MapNodesNoSelfLoops(g: Model, r: Model, trace: seq<Rewiring>)
    requires WellFormed(g) && WellFormed(r) && |r.nodes| == |g.nodes|
    requires forall a, b :: 0 <= a < |g.nodes| && 0 <= b < |g.nodes| ==> !g.connections[a][b]
    requires forall a, b {:trigger r.connections[a][b]} :: 0 <= a < |g.nodes| && 0 <= b < |g.nodes| ==>
      (r.connections[a][b] <==> (g.connections[a][b] || LatticeEdge(|g.nodes|, g.k, a, b)) && !ClearedBy(trace, a, b))
    requires NoWrap(|g.nodes|, g.k) && g.k - g.k / 2 < |g.nodes|
    ensures NoSelfLoops(r.connections, |g.nodes|)
  {
    forall a | 0 <= a < |g.nodes|
      ensures !r.connections[a][a]
    {
      LatticeNoSelfLoop(|g.nodes|, g.k, a);
    }
  }

  /** The `count` loop of `fetchNodeLinks`: the position of the first node named `name`, or `|nodes|` when none is. */
  function FirstIndex(nodes: seq<string>, name: string): (r: nat)
    ensures r <= |nodes|
    ensures r < |nodes| ==> nodes[r] == name
    ensures forall j :: 0 <= j < r ==> nodes[j] != name
  {
    FirstIndexFrom(nodes, name, 0)
  }

  function FirstIndexFrom(nodes: seq<string>, name: string, from: nat): (r: nat)
    requires from <= |nodes|
    decreases |nodes| - from
    ensures from <= r <= |nodes|
    ensures r < |nodes| ==> nodes[r] == name
    ensures forall j :: from <= j < r ==> nodes[j] != name
  {
    if from == |nodes| then from
    else if nodes[from] == name then from
    else FirstIndexFrom(nodes, name, from + 1)
  }

  /** The positions at or after `from` whose entry in `row` is set, in increasing order. */
  function LinkIndices(row: seq<bool>, from: nat): (r: seq<nat>)
    requires from <= |row|
    decreases |row| - from
    ensures forall t :: 0 <= t < |r| ==> from <= r[t] < |row| && row[r[t]]
    ensures forall t, u :: 0 <= t < u < |r| ==> r[t] < r[u]
    ensures forall j :: from <= j < |row| && row[j] ==> j in r
  {
    if from == |row| then []
    else if row[from] then [from] + LinkIndices(row, from + 1)
    else LinkIndices(row, from + 1)
  }

  /** The set positions of `row` at or after `from`. */
  ghost function SetPositions(row: seq<bool>, from: nat): set<nat> {
    set j: nat | from <= j < |row| && row[j]
  }

  /** `LinkIndices` lists each set position exactly once. */
  lemma {:induction false} LinkIndicesCount(row: seq<bool>, from: nat)
    requires from <= |row|
    decreases |row| - from
    ensures |LinkIndices(row, from)| == |SetPositions(row, from)|
  {
    if from < |row| {
      LinkIndicesCount(row, from + 1);
      SetPositionsStep(row, from);
    }
  }

  /** The set positions from `from` on are `from` itself, when set, and those after it. */
  lemma SetPositionsStep(row: seq<bool>, from: nat)
    requires from < |row|
    ensures |SetPositions(row, from)| == (if row[from] then 1 else 0) + |SetPositions(row, from + 1)|
  {
    var rest := SetPositions(row, from + 1);
    assert from !in rest;
    if row[from] {
      assert SetPositions(row, from) == {from} + rest;
    } else {
      assert SetPositions(row, from) == rest;
    }
  }

  /**
   * `fetchNodeLinks`: the names, in node order, whose entry is set in the row
   * of the first node called `name`. A name that is no node is the fatal
   * "Invalid fetch request".
   */
  function FetchNodeLinks(g: Model, name: string): (r: Result<seq<string>, GraphError>)
    requires WellFormed(g)
    ensures r.Failure? <==> name !in g.nodes
    ensures r.Failure? ==> r.error == InvalidFetch
    ensures r.Success? ==>
      var row := g.connections[FirstIndex(g.nodes, name)];
      var links := LinkIndices(row, 0);
      && |r.value| == |links|
      && (forall t :: 0 <= t < |links| ==> r.value[t] == g.nodes[links[t]])
      && (forall x :: x in r.value <==> exists j :: 0 <= j < |g.nodes| && row[j] && g.nodes[j] == x)
  {
    var count := FirstIndex(g.nodes, name);
    if count == |g.nodes| then Failure(InvalidFetch)
    else
      var links := LinkIndices(g.connections[count], 0);
      Success(seq(|links|, t requires 0 <= t < |links| => g.nodes[links[t]]))
  }

  /**
   * On a graph whose row for `name` is exactly that node's lattice row (as
   * `MapNodes` leaves a freshly populated model when nothing is rewired),
   * `fetchNodeLinks` returns 2 (k - k/2) names, none of them the node's own
   * position.
   */
  lemma FetchedLatticeDegree(g: Model, name: string)
    requires WellFormed(g) && name in g.nodes
    requires NoWrap(|g.nodes|, g.k) && 2 * (g.k - g.k / 2) < |g.nodes|
    requires forall b :: 0 <= b < |g.nodes| ==>
      (g.connections[FirstIndex(g.nodes, name)][b] <==> LatticeEdge(|g.nodes|, g.k, FirstIndex(g.nodes, name), b))
    ensures FetchNodeLinks(g, name).Success?
    ensures |FetchNodeLinks(g, name).value| == 2 * (g.k - g.k / 2)
    ensures FirstIndex(g.nodes, name) !in LinkIndices(g.connections[FirstIndex(g.nodes, name)], 0)
  {
    var n, c := |g.nodes|, FirstIndex(g.nodes, name);
    var row := g.connections[c];
    LinkIndicesCount(row, 0);
    assert SetPositions(row, 0) == LatticeNeighbourSet(n, g.k, c);
    LatticeDegree(n, g.k, c);
    LatticeNoSelfLoop(n, g.k, c);
  }
}

=== FILE: wrappers.dfy ===
/** Failure-carrying return values shared by every module of the model. */
module Wrappers {

  /** An optional value: `None` stands for the C++ sentinel "nothing here". */
  datatype Option<+T> = None | Some(value: T)

  /** Either a computed value or the reason the computation stopped. */
  datatype Result<+R, +E> = Success(value: R) | Failure(error: E)
}
